=== FILE: README.md ===
# GenreGenius AI — a verified model of the report pipeline

GenreGenius AI lets a user pick a Play Store genre, asks a FastAPI backend
for a market analysis of that genre, shows the report on a React dashboard,
and exports it as a PDF "blueprint". This project models the sequential
logic of that pipeline in Dafny and proves properties about it:

- **Scraper scoring** (`backend/scraper.py`). The install-label parser
  `parse_installs` is modelled. So are the review sentiment analyzer
  (`SentimentAnalyzer.analyze_reviews`), the saturation, feature-gap and
  opportunity clamps, and the tech-stack and roadmap rules of
  `run_full_analysis`.
- **Cache** (`backend/redis_cache_layer.py`). `MarketAnalysisCache` is
  modelled in its local-dictionary mode, as a `map<string, Report>` under
  the key `"genregenius:analysis:" + lower(genre)`, together with the
  clear-all endpoint.
- **Backend** (`backend/fastapi-backend.py`). The model covers
  `process_analysis` and the shape of `generate_growth_forecast`. It covers
  the read-through `POST /api/analyze`, the forced `POST /api/analyze/refresh`
  and the PDF file name.
- **Frontend** (`frontend/src/App.jsx`). The `App` component is modelled as a
  state machine. Its state is `selectedGenre`, `isAnalyzing`,
  `isDownloading` and `data`. Every click and every settled request is an
  event. A disabled or hidden button ignores clicks.
- **Wiring**. This part connects the two sides: a posted request is served
  by an endpoint, and its reply settles the component.

Modules: `Wrappers` (Option/Result), `Text` (ASCII lower-casing, substring
search, digits), `ReportModel` (the report JSON), `Installs`, `Sentiment`,
`Scraper`, `AnalysisCache`, `Server`, `App`, `Wiring`.

Calls into code the model cannot see become parameters:

- The scraping pipeline is a function `string -> Result<RawAnalysis>`, where
  a failure carries the message of the exception.
- The search-volume draw of `process_analysis`, the clock reading and the
  float growth curve form an `Env`.
- The five market deltas are `random.randint(-10, 10)` draws. They enter
  `Scraper.RunFullAnalysis` as a parameter, one per feature.
- Float-derived values enter as integers. These are the base coverage and
  the inner opportunity expression.
- A reply that never arrives is `None` in `Wiring.Deliver`.

Behaviours of the code worth noting, all modelled as written:

- The component has no "failed" status, only the `isAnalyzing` flag.
- A response's genre is never checked against the selected genre, so a late
  response for a genre the user has moved away from still replaces the data
  (`App.StaleResponseAccepted`).
- Sentiment chart points carry only `complaint` and `count`; there is no
  `severity`.
- In local mode, a cache hit sets `is_cached = True` on the stored
  dictionary itself, so the entry stays marked.
- The download uses the report captured when the button was pressed
  (`App.DownloadNamesCapturedReport`).
- Export and analysis are independent: the refresh button is not disabled
  by a running download.

## Model

`Installs.ParseInstalls` itself has no row; the seven `Installs.ParseInstalls*` lemmas below describe it.

| member | source | states |
|---|---|---|
| `Installs.ParseInstallsNoDigits` | backend/scraper.py:10-17 | A missing label, or one with no digit at all, parses to 0. |
| `Installs.ParseInstallsMillion` | backend/scraper.py:10-15 | "1,000,000+" parses to 1000000. |
| `Installs.ParseInstallsIsDigitValue` | backend/scraper.py:11-15 | A present label parses to the decimal value of its digit subsequence, including the empty label. |
| `Installs.ParseInstallsIgnoresNonDigit` | backend/scraper.py:13 | Inserting a non-digit character anywhere in a label leaves its value unchanged. |
| `Installs.ParseInstallsAppendDigit` | backend/scraper.py:13-15 | Appending a digit multiplies the value by ten and adds that digit, so digits are read left to right in base 10. |
| `Installs.ParseInstallsRoundTrip` | backend/scraper.py:13-15 | Parsing the decimal printing of any natural number gives the number back. |
| `Installs.ParseInstallsIdempotent` | backend/scraper.py:13-15 | Printing the parsed value and parsing it again gives the same value. |
| `Text.ContainsIffOccurs` | backend/scraper.py:73 | The substring scan behind `w in text` is true exactly when `w` occurs at some position of `text`. |
| `Sentiment.AnalyzeReviews` | backend/scraper.py:58-76 | The result has at most 5 entries with distinct categories from the fixed five. Each count equals the number of negative reviews that raise the category and lies between 1 and the number of negative reviews. Every category raised at least once appears. Counts are non-increasing. |
| `Sentiment.CountAllMatchesTally` | backend/scraper.py:69-74 | After the loop over the reviews, the counter holds for every category exactly the number of reviews that raise it, with distinct entries and positive counts. |
| `Sentiment.RaisesIffKeyword` | backend/scraper.py:70-73 | A review raises a category exactly when it is negative and one of the category's keywords occurs in its lower-cased text. |
| `Sentiment.OneReviewCountsOnce` | backend/scraper.py:69-74 | One more review raises a category's count by one if it raises that category, and by nothing otherwise. A review scored above 3 or with no score (default 5) leaves the counter unchanged. |
| `Sentiment.SubstringMatches` | backend/scraper.py:62-73 | Keywords match as substrings of the lower-cased text, so a one-star "Bad app" is an ads complaint. |
| `Sentiment.CountAllSize` | backend/scraper.py:61-67 | The counter never holds more than five entries, so `most_common(5)` drops nothing. |
| `Sentiment.SortByCountFacts` | backend/scraper.py:76 | The ordering step is a permutation of the counter, non-increasing by count, and stable: the entries with any given count keep their relative order. |
| `Sentiment.MostCommon` | backend/scraper.py:76 | `most_common(n)` returns `min(n, size)` entries, in non-increasing count order, drawn from the counter. Every entry left out counts no more than any entry kept. |
| `Sentiment.AnalyzeReviewsStable` | backend/scraper.py:76 | Categories with equal counts are reported in the order the counter first saw them. |
| `Scraper.Saturation` | backend/scraper.py:99-100 | Saturation lies in [0, 100]. Below 100 million installs it is the number of whole millions; from 100 million on it is 100. |
| `Scraper.FeaturesFor` | backend/scraper.py:104-109 | Every genre, listed or not, gets exactly five features. |
| `Scraper.FeatureGaps` | backend/scraper.py:114-124 | There is one gap per feature, in feature order. Each market value is coverage plus that feature's delta, clamped to [20, 85]: 85 above the range, 20 below it. The opportunity is in [30, 95], the same for every gap, and equals `(100 - coverage) + pain factor` clamped to [30, 95]. |
| `Scraper.ComplaintCountLastWins` | backend/scraper.py:112 | Looking up a category in the complaint map gives the count of the last entry with that category, as the dict comprehension keeps the last value. |
| `Scraper.ComplaintCountAbsent` | backend/scraper.py:117 | A category with no entry reads as 0, the `.get` default. |
| `Scraper.PainFactor` | backend/scraper.py:117 | The pain factor is half the Bugs/Crashes count plus the Missing Features count, rounded down (Python's `//`). |
| `Scraper.PainFactorOfAnalysis` | backend/scraper.py:111-117 | On the analyzer's own output the pain factor is `(crash reviews + missing-feature reviews) // 2`, counted over the negative reviews. |
| `Scraper.OpportunityScore` | backend/scraper.py:151 | The score lies in [10, 95], is the inner value when that is in range, and is the nearer bound otherwise. |
| `Scraper.TechStack` | backend/scraper.py:127-132 | There are four entries: Framework, Backend, Database, AI/ML. The framework is "React Native" exactly when saturation exceeds 50, and "Flutter" otherwise. |
| `Scraper.Recommendations` | backend/scraper.py:134-147 | There are two items. The first is HIGH exactly when the Bugs/Crashes count exceeds 3, the second exactly when the Poor UI count exceeds 5; otherwise each is MEDIUM. The first item develops the genre's first feature. |
| `Scraper.FirstPriorityFromReviews` | backend/scraper.py:111-147 | In a full analysis, the first roadmap item is HIGH exactly when more than three negative reviews mention a crash, freeze, bug or error. The second is HIGH exactly when more than five call the app ugly, confusing or hard to use. |
| `Scraper.RunFullAnalysis` | backend/scraper.py:79-158 | The raw analysis keeps the genre and apps. Its scores are percentages, with the opportunity in [10, 95]. It has at most 5 sentiment entries, exactly 5 gaps in the genre's feature order, 4 tech choices and 2 recommendations. The sentiment is the analyzer's output on the reviews. The opportunity is the clamped inner value. The gaps, tech stack and roadmap are built by their rules from the genre's features, the saturation and that sentiment. |
| `AnalysisCache.Key` | backend/redis_cache_layer.py:17 | The key is "genregenius:analysis:" followed by the genre, letter for letter lower-cased, with no upper-case letter left. |
| `AnalysisCache.GetAnalysis` | backend/redis_cache_layer.py:15-21 | A read finds a report exactly when the genre's key is stored, and then returns the report stored there. |
| `AnalysisCache.CacheAnalysis` | backend/redis_cache_layer.py:23-28 | A store adds the genre's key, which now holds the data. Every other key keeps its entry. |
| `AnalysisCache.KeyShared` | backend/redis_cache_layer.py:15-17 | Two genres share a cache key exactly when their lower-case forms are equal. |
| `AnalysisCache.KeyOfLowered` | backend/redis_cache_layer.py:17-24 | A genre and its lower-cased spelling have the same key, so they read the same entry in every cache. |
| `AnalysisCache.GetAfterCache` | backend/redis_cache_layer.py:15-28 | After storing `d` for `g'`, reading any `g` that lower-cases like `g'` gives `d`. Every other genre reads what it read before. |
| `AnalysisCache.CacheSize` | backend/redis_cache_layer.py:23-28 | A store adds one entry when the genre's key is new and keeps the dictionary's size when it overwrites an entry. |
| `AnalysisCache.LastWriteWins` | backend/redis_cache_layer.py:24-28 | A second store for the same key replaces the first. |
| `AnalysisCache.ReplayGet` | backend/redis_cache_layer.py:15-28 | After any series of stores into an empty cache, a read returns the last matching store, or None if there was none. |
| `AnalysisCache.NeverCached` | backend/redis_cache_layer.py:15-21 | A genre that no store mentions, up to case, reads None. |
| `AnalysisCache.ClearAll` | backend/redis_cache_layer.py:31-35 | After clear-all every read returns None, and the endpoint answers "Cache Cleared". |
| `Server.GrowthForecast` | backend/fastapi-backend.py:20-40 | The forecast has exactly 4 points with months Oct, Nov, Dec, Jan in order. Month `i`'s figures are the growth curve at the install base of the first ten apps. |
| `Server.ForecastIgnoresTail` | backend/fastapi-backend.py:23 | Apps after the tenth never change the forecast. |
| `Server.SearchVolume` | backend/fastapi-backend.py:53 | The search volume reads as the drawn figure followed by "M/mo"; parsing it like an install label gives the figure back. |
| `Server.ProcessAnalysis` | backend/fastapi-backend.py:42-64 | The report keeps the requested genre and counts the scraped apps. Its keywords are ["smart", "ai", genre]. Sentiment points keep order and length with `category` renamed to `complaint`. Gaps, tech stack and recommendations pass through, and `is_cached` is false. A well-formed raw analysis gives a well-formed report. |
| `Server.Recompute` | backend/fastapi-backend.py:74-79 | A failing analysis gives status 500 with the exception's message and an unchanged cache. A successful one returns the processed report and stores exactly it under the genre. |
| `Server.RequestedGenre` | backend/fastapi-backend.py:68 | A request without a genre asks for "Productivity"; otherwise its genre is used as given. |
| `Server.AnalyzeMarket` | backend/fastapi-backend.py:66-79 | On a hit it returns the stored report with `is_cached` true and stores that copy. On a miss with success it returns `process_analysis` of the pipeline's result, uncached, and stores exactly that under the genre. On a miss with failure it returns 500 and leaves the cache unchanged. A request without a genre means "Productivity". |
| `Server.RefreshMarket` | backend/fastapi-backend.py:81-90 | Refresh always recomputes. On success it returns `process_analysis` of the pipeline's result, uncached, and stores exactly that under the genre, whether or not an entry existed. On failure it returns 500 and leaves the cache unchanged. |
| `Server.AnalyzeHitIgnoresAnalysis` | backend/fastapi-backend.py:69-72 | On a hit the result does not depend on the pipeline or the random draws, so no analysis runs. |
| `Server.EndpointsFrame` | backend/fastapi-backend.py:74-88 | Neither endpoint changes the entry of a genre whose lower-case form differs from the requested one. |
| `Server.AnalyzeTwice` | backend/fastapi-backend.py:66-77 | After a successful analyze, a second analyze for the same genre up to case returns the same report marked cached, whatever the pipeline would now produce. |
| `Server.RefreshThenAnalyze` | backend/fastapi-backend.py:81-88 | After a successful refresh, analyze serves the refreshed report marked cached. |
| `Server.ScrapedAnalysisSound` | backend/scraper.py:79-158 | A pipeline whose every success is `run_full_analysis` of some scraped data only returns well-formed analyses. |
| `Server.EndpointsKeepInvariant` | backend/fastapi-backend.py:66-90 | If every entry is stored under its own report's genre and is well formed, both endpoints keep that. Every report they send belongs to the requested genre up to case and is well formed. |
| `Server.PdfFileName` | backend/fastapi-backend.py:105 | The name starts with "Blueprint_", ends with ".pdf", and has the genre, or "Analysis", in between. |
| `Server.PdfFileNameGenre` | backend/fastapi-backend.py:105 | The genre can be read back from the file name. |
| `App.Init` | frontend/src/App.jsx:17-20 | The initial state has genre "Finance", is neither analyzing nor downloading, has no data, and shows the empty state. |
| `App.View` | frontend/src/App.jsx:79-87 | The view is Empty exactly when there is no data and no analysis, Loading exactly when analyzing (even with data), and Dashboard exactly when data exists and no analysis runs. |
| `App.Indicator` | frontend/src/App.jsx:91-93 | The indicator reads "Cached Data" exactly when the report's `is_cached` is true, and "Live Store Data" otherwise. |
| `App.Step` | frontend/src/App.jsx:22-119 | Changing the genre changes only the genre. Each analyze button posts one request for the selected genre and sets the flag exactly when it is enabled, and otherwise does nothing: the header button when not analyzing ("analyze"), the empty-state button only on the empty view ("analyze"), refresh only with data and not analyzing ("analyze/refresh"). A settled analysis clears the flag and sets data to exactly the response, or alerts and keeps data; one arriving when nothing is awaited changes nothing. The download button acts only on the dashboard when no download is pending, and then captures the on-screen report and posts it once; otherwise it does nothing. Download events never touch data, genre or the analysis flag. A settled download clears the flag and saves the captured report's file or alerts. |
| `App.StepRequests` | frontend/src/App.jsx:22-35 | A step posts an analysis request only from a state not analyzing, only for the selected genre, and leaves the state analyzing. Requests plus the old in-flight count equal the settled responses plus the new in-flight count. |
| `App.AtMostOneInFlight` | frontend/src/App.jsx:67-72 | Over any run, requests posted plus the initial in-flight flag equal the responses acted on plus the final in-flight flag. |
| `App.NeverTwoOutstanding` | frontend/src/App.jsx:67-71 | From the initial state, requests posted never exceed responses acted on by more than one. |
| `App.DataOnlyFromSuccess` | frontend/src/App.jsx:25-30 | `data` changes only when an awaited analysis succeeds, and then becomes exactly the response. |
| `App.StaleResponseAccepted` | frontend/src/App.jsx:25-26 | A successful response whose genre differs from the selected genre still replaces the data and shows the dashboard. |
| `App.StartAnalysis` | frontend/src/App.jsx:22-25 | Starting an analysis shows the loading view, posts one request to the given endpoint for the selected genre, and changes nothing else. |
| `App.SettleAnalysis` | frontend/src/App.jsx:25-31 | A settled analysis always clears the flag. Success sets data to the response with no effect. Failure keeps data and raises the connection alert. Genre and download state are untouched. |
| `App.StartDownload` | frontend/src/App.jsx:37-41 | Without data nothing happens. Otherwise the flag is set, the report on screen is captured and posted. Data, genre and the analysis flag are untouched. |
| `App.SettleDownload` | frontend/src/App.jsx:41-49 | A settled download clears the flag and the captured report. Success saves "Blueprint_" + captured genre + ".pdf"; failure raises "PDF Error". Data, genre and the analysis flag are untouched. |
| `App.InitConsistent` | frontend/src/App.jsx:19 | The initial state is consistent: not downloading and nothing captured. |
| `App.StepConsistent` | frontend/src/App.jsx:37-50 | The download flag is set exactly while a download's captured report is pending, and every step keeps this. |
| `App.DownloadNamesCapturedReport` | frontend/src/App.jsx:37-49 | Whatever events happen while a download is pending, its success saves "Blueprint_" + genre + ".pdf" for the report on screen at the click, and its failure alerts "PDF Error". |
| `App.ExportingUntouched` | frontend/src/App.jsx:119 | While a download is pending, no event except its own response changes the captured report, and none of them posts a report, so a second download cannot start. |
| `App.FinanceScenario` | frontend/src/App.jsx:17-35 | Analyze Finance, refresh, switch to Fitness and fail. The first report shows on the dashboard as live data. The refreshed Finance report stays on the dashboard at the end. The posts are exactly analyze/Finance, analyze/refresh/Finance and analyze/Fitness, followed by one alert. |
| `Wiring.Deliver` | frontend/src/App.jsx:25-28 | The component receives a report exactly when the backend replied with one, and then receives that same report. Error statuses and missing replies are failures. |
| `Wiring.FileNamesAgree` | frontend/src/App.jsx:45 | The name the frontend saves under equals the backend's `generate_pdf` file name for the report's genre. |
| `Wiring.AnalyzeRoundTrip` | frontend/src/App.jsx:22-31 | Press Analyze and let the backend answer. On success the dashboard shows a well-formed report for the selected genre up to case, and the indicator reads "Cached Data" exactly when the backend had it cached. On an error status the previous data stays. |

## Left out

- The Redis mode of `MarketAnalysisCache` is not modelled: connection probing, the JSON round trip, the 86400-second expiry and `flushdb`. Only the local-dictionary fallback is.
- Scraping I/O is not modelled: `search_genre`, `scrape_reviews`, `asyncio.sleep` and the log prints. The search results and the reviews of the first three apps enter `Scraper.RunFullAnalysis` as parameters.
- `Scraper.RunFullAnalysis` takes the float-derived values as integers: `avg_rating` is reduced to `baseCoverage` and to the inner opportunity value. The forecast's downloads and revenue come from an opaque growth curve in `Server.Env`. Floating point is not modelled.
- `Scraper.Saturation` treats `int(total / 1000000)` as exact floor division. That holds for the non-negative totals this sum produces; float rounding of totals beyond 2^53 is not modelled.
- Randomness is not modelled: `random.seed(genre)`, the market deltas (taken as parameters, one per feature) and the search-volume draw (taken in `Server.Env`). Nor is the clock reading for `last_updated`.
- `Text.Lower`, and with it `AnalysisCache.KeyShared`, lower-cases ASCII letters only; Python's `str.lower` also folds other Unicode letters.
- `Installs.ParseInstallsIsDigitValue` treats only ASCII digits as digits; Python's `\d` and `int` also accept other Unicode decimal digits.
- A request body whose "genre" is present but not a string is not modelled. For a JSON `null`, `/api/analyze` would fail at `.lower()` in the cache lookup, which runs before its `try`. `/api/analyze/refresh` would run the whole analysis for `None` and then fail at `.lower()` when storing the result, inside its `try`, so it would answer 500 with that message.
- A review whose score is present but null is not modelled (Python would raise at the comparison); a missing score is `None` and counts as 5.
- The analyzer takes review content as a string. A present-but-`None` content, which Python turns into the text "None", is not modelled.
- Dictionary truthiness in `if cached:` is not modelled. Stored reports are never empty, so a stored entry always counts as a hit.
- The PDF rendering of `pdf_generator.py` (reportlab layout, matplotlib charts), the temporary file and the `generate-pdf` error path are not modelled. Only the file name is.
- The browser mechanics of the download (Blob, object URL, anchor click) are not modelled. The file save is the effect `SaveFile(name)`.
- React's batched updates and real interleaving of asynchronous handlers are not modelled. Each handler is a start event and a settle event, atomic at the `await`.
- The presentational components (charts, `MetricCard`, `EmptyState` layout, `MonetizationCard`, `ErrorBoundary`) are not modelled. Their logic is null guards and colour lookup.
- `frontend/src/data/mockData.js` is static fixture data and is not modelled.
- FastAPI, uvicorn and CORS wiring are not modelled.

=== FILE: app.dfy ===
/** The React `App` component as a state machine. Its four `useState` hooks
    are the fields of `AppState`; every user action and every settled request
    is an `Event`; `Step` gives the next state and the side effects the
    component issues (HTTP posts, the file save, alerts). A button that is
    disabled or not rendered ignores clicks, so its event changes nothing.
    The asynchronous handlers are split into a start event (the code before
    the `await`) and a settle event (the code after it). */
module App {
  import opened Wrappers
  import opened ReportModel

  const InitialGenre: string := "Finance"
  const AnalyzeEndpoint: string := "analyze"
  const RefreshEndpoint: string := "analyze/refresh"
  const AnalysisAlert: string := "Backend Connection Error"
  const PdfAlert: string := "PDF Error"

  /** `selectedGenre`, `isAnalyzing`, `isDownloading` and `data` are the
      component's state; `exporting` is the report captured by the closure
      of a `downloadReport` call still waiting for its response. */
  datatype AppState = AppState(
    selectedGenre: string,
    isAnalyzing: bool,
    isDownloading: bool,
    data: Option<Report>,
    exporting: Option<Report>)

  /** The three branches of the main panel. */
  datatype Panel = EmptyView | LoadingView | DashboardView

  datatype Effect =
    | PostAnalysis(endpoint: string, genre: string)
    | PostPdf(report: Report)
    | SaveFile(name: string)
    | Alert(message: string)

  datatype Event =
    | SelectGenre(genre: string)
    | ClickAnalyze
    | ClickEmptyStateAnalyze
    | ClickRefresh
    | AnalysisSettled(response: Result<Report>)
    | ClickDownload
    | DownloadSettled(succeeded: bool)

  datatype Transition = Transition(next: AppState, effects: seq<Effect>)

  /** The state of a freshly mounted component. */
  function Init(): (s: AppState)
    ensures s.selectedGenre == InitialGenre
    ensures !s.isAnalyzing && !s.isDownloading
    ensures s.data.None? && s.exporting.None?
    ensures View(s) == EmptyView
  {
    AppState(InitialGenre, false, false, None, None)
  }

  /** `!data && !isAnalyzing ? <EmptyState/> : isAnalyzing ? <spinner/> : <dashboard/>`. */
  function View(s: AppState): (v: Panel)
    ensures v == EmptyView <==> s.data.None? && !s.isAnalyzing
    ensures v == LoadingView <==> s.isAnalyzing
    ensures v == DashboardView <==> s.data.Some? && !s.isAnalyzing
  {
    if s.data.None? && !s.isAnalyzing then EmptyView
    else if s.isAnalyzing then LoadingView
    else DashboardView
  }

  /** The status indicator above the dashboard. */
  function Indicator(r: Report): (text: string)
    ensures text == "Cached Data" <==> r.isCached
    ensures text == "Live Store Data" <==> !r.isCached
  {
    if r.isCached then "Cached Data" else "Live Store Data"
  }

  /** The header's Analyze button is disabled while analyzing. */
  predicate AnalyzeEnabled(s: AppState) {
    !s.isAnalyzing
  }

  /** The refresh button is rendered only with data, and disabled while analyzing. */
  predicate RefreshEnabled(s: AppState) {
    s.data.Some? && !s.isAnalyzing
  }

  /** The download button is rendered on the dashboard only, and disabled while downloading. */
  predicate DownloadEnabled(s: AppState) {
    View(s) == DashboardView && !s.isDownloading
  }

  /** `performAnalysis(endpoint, selectedGenre)` up to its `await`. */
  function StartAnalysis(s: AppState, endpoint: string): (t: Transition)
    ensures t.next.isAnalyzing && View(t.next) == LoadingView
    ensures t.next.data == s.data && t.next.selectedGenre == s.selectedGenre
    ensures t.next.isDownloading == s.isDownloading && t.next.exporting == s.exporting
    ensures t.effects == [PostAnalysis(endpoint, s.selectedGenre)]
  {
    Transition(s.(isAnalyzing := true), [PostAnalysis(endpoint, s.selectedGenre)])
  }

  /** The rest of `performAnalysis`: `setData(response.data)` on success,
      an alert on failure, and `setIsAnalyzing(false)` in either case. */
  function SettleAnalysis(s: AppState, response: Result<Report>): (t: Transition)
    ensures !t.next.isAnalyzing
    ensures response.Success? ==> t.next.data == Some(response.value) && t.effects == []
    ensures response.Failure? ==> t.next.data == s.data && t.effects == [Alert(AnalysisAlert)]
    ensures t.next.selectedGenre == s.selectedGenre
    ensures t.next.isDownloading == s.isDownloading && t.next.exporting == s.exporting
  {
    match response
    case Success(report) => Transition(s.(data := Some(report), isAnalyzing := false), [])
    case Failure(_) => Transition(s.(isAnalyzing := false), [Alert(AnalysisAlert)])
  }

  /** `downloadReport` up to its `await`: nothing at all without data. */
  function StartDownload(s: AppState): (t: Transition)
    ensures s.data.None? ==> t == Transition(s, [])
    ensures s.data.Some? ==>
              && t.next.isDownloading && t.next.exporting == s.data
              && t.effects == [PostPdf(s.data.value)]
    ensures t.next.data == s.data && t.next.selectedGenre == s.selectedGenre
    ensures t.next.isAnalyzing == s.isAnalyzing
  {
    if s.data.None? then Transition(s, [])
    else Transition(s.(isDownloading := true, exporting := s.data), [PostPdf(s.data.value)])
  }

  /** The name the downloaded PDF is saved under. */
  function FileName(r: Report): string {
    "Blueprint_" + r.genre + ".pdf"
  }

  /** The rest of `downloadReport`: save the file named after the captured
      report, or alert; `setIsDownloading(false)` in either case. */
  function SettleDownload(s: AppState, succeeded: bool): (t: Transition)
    requires s.exporting.Some?
    ensures !t.next.isDownloading && t.next.exporting.None?
    ensures succeeded ==> t.effects == [SaveFile("Blueprint_" + s.exporting.value.genre + ".pdf")]
    ensures !succeeded ==> t.effects == [Alert(PdfAlert)]
    ensures t.next.data == s.data && t.next.selectedGenre == s.selectedGenre
    ensures t.next.isAnalyzing == s.isAnalyzing
  {
    var effect := if succeeded then SaveFile(FileName(s.exporting.value)) else Alert(PdfAlert);
    Transition(s.(isDownloading := false, exporting := None), [effect])
  }

  function Step(s: AppState, e: Event): (t: Transition)
    ensures e.SelectGenre? ==> t == Transition(s.(selectedGenre := e.genre), [])
    ensures e.ClickAnalyze? || e.ClickEmptyStateAnalyze? || e.ClickRefresh? ==>
              || t == Transition(s, [])
              || (&& !s.isAnalyzing
                  && t.next == s.(isAnalyzing := true)
                  && |t.effects| == 1 && t.effects[0].PostAnalysis?
                  && t.effects[0].genre == s.selectedGenre)
    ensures e.ClickAnalyze? && !s.isAnalyzing ==>
              t.effects == [PostAnalysis(AnalyzeEndpoint, s.selectedGenre)]
    ensures e.ClickAnalyze? && s.isAnalyzing ==> t == Transition(s, [])
    ensures e.ClickEmptyStateAnalyze? && View(s) == EmptyView ==>
              t == Transition(s.(isAnalyzing := true), [PostAnalysis(AnalyzeEndpoint, s.selectedGenre)])
    ensures e.ClickEmptyStateAnalyze? && View(s) != EmptyView ==> t == Transition(s, [])
    ensures e.ClickRefresh? && s.data.Some? && !s.isAnalyzing ==>
              t.effects == [PostAnalysis(RefreshEndpoint, s.selectedGenre)]
    ensures e.ClickRefresh? && (s.data.None? || s.isAnalyzing) ==> t == Transition(s, [])
    ensures e.AnalysisSettled? && !s.isAnalyzing ==> t == Transition(s, [])
    ensures e.AnalysisSettled? && s.isAnalyzing ==>
              && !t.next.isAnalyzing
              && t.next.selectedGenre == s.selectedGenre
              && t.next.isDownloading == s.isDownloading
              && t.next.exporting == s.exporting
              && (e.response.Success? ==> t.next.data == Some(e.response.value) && t.effects == [])
              && (e.response.Failure? ==> t.next.data == s.data && t.effects == [Alert(AnalysisAlert)])
    ensures e.ClickDownload? || e.DownloadSettled? ==>
              && t.next.data == s.data
              && t.next.selectedGenre == s.selectedGenre
              && t.next.isAnalyzing == s.isAnalyzing
    ensures e.ClickDownload? && !DownloadEnabled(s) ==> t == Transition(s, [])
    ensures e.ClickDownload? && DownloadEnabled(s) ==>
              && t.next.isDownloading && t.next.exporting == s.data
              && t.effects == [PostPdf(s.data.value)]
    ensures e.DownloadSettled? && s.exporting.None? ==> t == Transition(s, [])
    ensures e.DownloadSettled? && s.exporting.Some? ==>
              && !t.next.isDownloading
              && t.effects == [if e.succeeded then SaveFile(FileName(s.exporting.value)) else Alert(PdfAlert)]
  {
    match e
    case SelectGenre(g) => Transition(s.(selectedGenre := g), [])
    case ClickAnalyze =>
      if AnalyzeEnabled(s) then StartAnalysis(s, AnalyzeEndpoint) else Transition(s, [])
    case ClickEmptyStateAnalyze =>
      if View(s) == EmptyView then StartAnalysis(s, AnalyzeEndpoint) else Transition(s, [])
    case ClickRefresh =>
      if RefreshEnabled(s) then StartAnalysis(s, RefreshEndpoint) else Transition(s, [])
    case AnalysisSettled(response) =>
      if s.isAnalyzing then SettleAnalysis(s, response) else Transition(s, [])
    case ClickDownload =>
      if DownloadEnabled(s) then StartDownload(s) else Transition(s, [])
    case DownloadSettled(succeeded) =>
      if s.exporting.Some? then SettleDownload(s, succeeded) else Transition(s, [])
  }

  /** Runs the events in order from `s`, collecting every effect. */
  function Run(s: AppState, events: seq<Event>): Transition {
    if |events| == 0 then Transition(s, [])
    else
      var before := Run(s, events[..|events| - 1]);
      var last := Step(before.next, events[|events| - 1]);
      Transition(last.next, before.effects + last.effects)
  }

  /** How many analysis requests the effects post. */
  function AnalysisRequests(effects: seq<Effect>): nat {
    if |effects| == 0 then 0
    else AnalysisRequests(effects[..|effects| - 1]) + (if effects[|effects| - 1].PostAnalysis? then 1 else 0)
  }

  /** How many analysis responses the run acted on. */
  function AnalysesSettled(s: AppState, events: seq<Event>): nat {
    if |events| == 0 then 0
    else
      var before := Run(s, events[..|events| - 1]);
      AnalysesSettled(s, events[..|events| - 1])
        + (if events[|events| - 1].AnalysisSettled? && before.next.isAnalyzing then 1 else 0)
  }

  lemma {:induction false} AnalysisRequestsAppend(a: seq<Effect>, b: seq<Effect>)
    ensures AnalysisRequests(a + b) == AnalysisRequests(a) + AnalysisRequests(b)
    decreases |b|
  {
    if |b| > 0 {
      assert (a + b)[..|a + b| - 1] == a + b[..|b| - 1];
      AnalysisRequestsAppend(a, b[..|b| - 1]);
    } else {
      assert a + b == a;
    }
  }

  function InFlight(s: AppState): nat {
    if s.isAnalyzing then 1 else 0
  }

  /** One step posts an analysis request exactly when it starts an analysis:
      only from a state not analyzing, for the selected genre, and the new
      state is analyzing. */
  lemma StepRequests(s: AppState, e: Event)
    ensures var t := Step(s, e);
      AnalysisRequests(t.effects) + InFlight(s)
        == (if e.AnalysisSettled? && s.isAnalyzing then 1 else 0) + InFlight(t.next)
    ensures var t := Step(s, e);
      forall k :: 0 <= k < |t.effects| && t.effects[k].PostAnalysis? ==>
        !s.isAnalyzing && t.next.isAnalyzing && t.effects[k].genre == s.selectedGenre
  {
    var t := Step(s, e);
    assert t.effects == [] ==> AnalysisRequests(t.effects) == 0;
    if |t.effects| == 1 {
      assert t.effects[..0] == [];
    }
  }

  /** At most one analysis is in flight: over any run, the requests posted
      equal the responses acted on plus the one still awaited, if any. */
  lemma {:induction false} AtMostOneInFlight(s: AppState, events: seq<Event>)
    ensures AnalysisRequests(Run(s, events).effects) + InFlight(s)
         == AnalysesSettled(s, events) + InFlight(Run(s, events).next)
  {
    if |events| > 0 {
      var init := events[..|events| - 1];
      var before := Run(s, init);
      var last := Step(before.next, events[|events| - 1]);
      AtMostOneInFlight(s, init);
      StepRequests(before.next, events[|events| - 1]);
      AnalysisRequestsAppend(before.effects, last.effects);
    }
  }

  /** From the initial state no second request is ever posted before the
      first has been answered. */
  lemma NeverTwoOutstanding(events: seq<Event>)
    ensures AnalysisRequests(Run(Init(), events).effects) <= AnalysesSettled(Init(), events) + 1
  {
    AtMostOneInFlight(Init(), events);
  }

  /** `data` changes only when an awaited analysis succeeds, and then becomes
      exactly the response; no field of the old report survives. */
  lemma DataOnlyFromSuccess(s: AppState, e: Event)
    requires Step(s, e).next.data != s.data
    ensures s.isAnalyzing && e.AnalysisSettled? && e.response.Success?
    ensures Step(s, e).next.data == Some(e.response.value)
  {
  }

  /** Nothing checks the response's genre against the selected one: a
      response for a genre the user has since moved away from replaces
      the data all the same. */
  lemma StaleResponseAccepted(s: AppState, report: Report)
    requires s.isAnalyzing
    requires report.genre != s.selectedGenre
    ensures Step(s, AnalysisSettled(Success(report))).next.data == Some(report)
    ensures View(Step(s, AnalysisSettled(Success(report))).next) == DashboardView
  {
  }

  /** The download's busy flag and its captured report go together. */
  predicate Consistent(s: AppState) {
    s.isDownloading <==> s.exporting.Some?
  }

  /** A freshly mounted component is consistent, so every reachable state is. */
  lemma InitConsistent()
    ensures Consistent(Init())
  {
  }

  lemma StepConsistent(s: AppState, e: Event)
    requires Consistent(s)
    ensures Consistent(Step(s, e).next)
  {
  }

  /** The downloaded file is named after the report that was on screen when
      the button was pressed, even if new data arrived meanwhile. */
  lemma DownloadNamesCapturedReport(s: AppState, events: seq<Event>, succeeded: bool)
    requires Consistent(s)
    requires DownloadEnabled(s)
    requires forall i :: 0 <= i < |events| ==> !events[i].DownloadSettled?
    ensures var started := Step(s, ClickDownload).next;
      var waiting := Run(started, events).next;
      Step(waiting, DownloadSettled(succeeded)).effects
        == [if succeeded then SaveFile(FileName(s.data.value)) else Alert(PdfAlert)]
  {
    var started := Step(s, ClickDownload).next;
    ExportingUntouched(started, events);
  }

  /** While a download is awaited, no event but its own response changes
      the captured report, and no second report is posted: the disabled
      button ignores clicks. */
  lemma {:induction false} ExportingUntouched(s: AppState, events: seq<Event>)
    requires Consistent(s) && s.exporting.Some?
    requires forall i :: 0 <= i < |events| ==> !events[i].DownloadSettled?
    ensures Run(s, events).next.exporting == s.exporting
    ensures Consistent(Run(s, events).next)
    ensures forall k :: 0 <= k < |Run(s, events).effects| ==> !Run(s, events).effects[k].PostPdf?
  {
    if |events| > 0 {
      var init := events[..|events| - 1];
      var before := Run(s, init);
      var last := Step(before.next, events[|events| - 1]);
      ExportingUntouched(s, init);
      StepConsistent(before.next, events[|events| - 1]);
      assert !DownloadEnabled(before.next);
      forall k | 0 <= k < |last.effects|
        ensures !last.effects[k].PostPdf?
      {
      }
      assert Run(s, events).effects == before.effects + last.effects;
    }
  }

  /** The scenario: analyze Finance (live data), refresh it, then switch to
      Fitness and have that analysis fail. The first report shows as live
      data; the refreshed Finance report stays on the dashboard and one alert
      is raised. */
  lemma FinanceScenario(live: Report, refreshed: Report, err: string)
    requires !live.isCached
    ensures var run := Run(Init(), [
        ClickAnalyze, AnalysisSettled(Success(live)),
        ClickRefresh, AnalysisSettled(Success(refreshed)),
        SelectGenre("Fitness"), ClickAnalyze, AnalysisSettled(Failure(err))]);
      && (var first := Run(Init(), [ClickAnalyze, AnalysisSettled(Success(live))]).next;
          && first.data == Some(live)
          && View(first) == DashboardView
          && Indicator(first.data.value) == "Live Store Data")
      && run.next.data == Some(refreshed)
      && run.next.selectedGenre == "Fitness"
      && View(run.next) == DashboardView
      && run.effects == [
           PostAnalysis(AnalyzeEndpoint, "Finance"),
           PostAnalysis(RefreshEndpoint, "Finance"),
           PostAnalysis(AnalyzeEndpoint, "Fitness"),
           Alert(AnalysisAlert)]
  {
    var s0 := Init();
    var s1 := Step(s0, ClickAnalyze).next;
    var s2 := Step(s1, AnalysisSettled(Success(live))).next;
    assert View(s2) == DashboardView && Indicator(s2.data.value) == "Live Store Data";
    var s3 := Step(s2, ClickRefresh).next;
    var s4 := Step(s3, AnalysisSettled(Success(refreshed))).next;
    var s5 := Step(s4, SelectGenre("Fitness")).next;
    var s6 := Step(s5, ClickAnalyze).next;
    var events := [
        ClickAnalyze, AnalysisSettled(Success(live)),
        ClickRefresh, AnalysisSettled(Success(refreshed)),
        SelectGenre("Fitness"), ClickAnalyze, AnalysisSettled(Failure(err))];
    var post1 := PostAnalysis(AnalyzeEndpoint, "Finance");
    var post2 := PostAnalysis(RefreshEndpoint, "Finance");
    var post3 := PostAnalysis(AnalyzeEndpoint, "Fitness");
    assert events[..0] == [];
    assert events[..1] == [ClickAnalyze];
    assert Run(s0, events[..1]) == Transition(s1, [post1]);
    assert events[..2][..1] == events[..1];
    assert Run(s0, events[..2]) == Transition(s2, [post1]);
    assert events[..2] == [ClickAnalyze, AnalysisSettled(Success(live))];
    assert events[..3][..2] == events[..2];
    assert Run(s0, events[..3]) == Transition(s3, [post1, post2]);
    assert events[..4][..3] == events[..3];
    assert Run(s0, events[..4]) == Transition(s4, [post1, post2]);
    assert events[..5][..4] == events[..4];
    assert Run(s0, events[..5]) == Transition(s5, [post1, post2]);
    assert events[..6][..5] == events[..5];
    assert Run(s0, events[..6]) == Transition(s6, [post1, post2, post3]);
    assert events[..7] == events;
  }
}

=== FILE: cache.dfy ===
/** `MarketAnalysisCache` in its local-dictionary mode (the mode it falls
    back to when no Redis server answers), and the clear-all endpoint. */
module AnalysisCache {
  import opened Wrappers
  import opened Text
  import opened ReportModel

  /** `local_cache`: cache key to stored report. */
  type Cache = map<string, Report>

  const KeyPrefix: string := "genregenius:analysis:"

  /** The cache key of a genre; genres are compared without regard to case. */
  function Key(genre: string): (k: string)
    ensures |k| == |KeyPrefix| + |genre|
    ensures k[..|KeyPrefix|] == KeyPrefix
    ensures forall i :: |KeyPrefix| <= i < |k| ==> !IsUpper(k[i])
    ensures forall i :: |KeyPrefix| <= i < |k| ==> k[i] == LowerChar(genre[i - |KeyPrefix|])
  {
    KeyPrefix + Lower(genre)
  }

  /** `get_analysis(genre)`: `local_cache.get(key)`, so a genre reads the
      entry stored under its key and nothing when there is none. */
  function GetAnalysis(cache: Cache, genre: string): (r: Option<Report>)
    ensures r.Some? <==> Key(genre) in cache
    ensures r.Some? ==> r.value == cache[Key(genre)]
  {
    if Key(genre) in cache then Some(cache[Key(genre)]) else None
  }

  /** `cache_analysis(genre, data)`: `local_cache[key] = data`. The genre's
      key now holds `data`; every other key keeps its entry or its absence. */
  function CacheAnalysis(cache: Cache, genre: string, data: Report): (c: Cache)
    ensures c.Keys == cache.Keys + {Key(genre)}
    ensures c[Key(genre)] == data
    ensures forall k :: k in cache && k != Key(genre) ==> c[k] == cache[k]
  {
    cache[Key(genre) := data]
  }

  /** `DELETE /api/cache/clear-all`: replaces the dictionary by an empty one
      and answers with a fixed message. */
  function ClearAll(cache: Cache): (result: (Cache, string))
    ensures forall g :: GetAnalysis(result.0, g) == None
    ensures result.1 == "Cache Cleared"
  {
    (map[], "Cache Cleared")
  }

  /** Two genres share a cache entry exactly when they agree once lower-cased. */
  lemma KeyShared(a: string, b: string)
    ensures Key(a) == Key(b) <==> Lower(a) == Lower(b)
  {
    if Key(a) == Key(b) {
      assert Key(a)[|KeyPrefix|..] == Lower(a);
      assert Key(b)[|KeyPrefix|..] == Lower(b);
    }
  }

  /** Keys are already lower-case: a genre and its lower-cased spelling
      read and write the same entry. */
  lemma KeyOfLowered(genre: string)
    ensures Key(Lower(genre)) == Key(genre)
    ensures forall cache :: GetAnalysis(cache, Lower(genre)) == GetAnalysis(cache, genre)
  {
    LowerIdempotent(genre);
    KeyShared(Lower(genre), genre);
  }

  /** Reading back after a write: a genre with the same lower-case form sees
      the written report, every other genre sees what it saw before. */
  lemma GetAfterCache(cache: Cache, written: string, data: Report, genre: string)
    ensures GetAnalysis(CacheAnalysis(cache, written, data), genre)
         == if Lower(genre) == Lower(written) then Some(data) else GetAnalysis(cache, genre)
  {
    KeyShared(genre, written);
  }

  /** The dictionary grows by one entry when the genre's key is new, and
      keeps its size when an entry is overwritten. */
  lemma CacheSize(cache: Cache, genre: string, data: Report)
    ensures |CacheAnalysis(cache, genre, data)| == if Key(genre) in cache then |cache| else |cache| + 1
  {
    var c := CacheAnalysis(cache, genre, data);
    assert |c| == |c.Keys| && |cache| == |cache.Keys|;
    if Key(genre) !in cache {
      assert c.Keys == cache.Keys + {Key(genre)};
    } else {
      assert c.Keys == cache.Keys;
    }
  }

  /** A second write for the same key replaces the first. */
  lemma LastWriteWins(cache: Cache, g1: string, d1: Report, g2: string, d2: Report)
    requires Lower(g1) == Lower(g2)
    ensures CacheAnalysis(CacheAnalysis(cache, g1, d1), g2, d2) == CacheAnalysis(cache, g2, d2)
  {
    KeyShared(g1, g2);
  }

  /** The cache after a series of writes into the empty dictionary. */
  function Replay(writes: seq<(string, Report)>): Cache {
    if |writes| == 0 then map[]
    else CacheAnalysis(Replay(writes[..|writes| - 1]), writes[|writes| - 1].0, writes[|writes| - 1].1)
  }

  /** The report of the last write whose genre matches `genre` up to case. */
  function LastWrite(writes: seq<(string, Report)>, genre: string): Option<Report> {
    if |writes| == 0 then None
    else if Lower(writes[|writes| - 1].0) == Lower(genre) then Some(writes[|writes| - 1].1)
    else LastWrite(writes[..|writes| - 1], genre)
  }

  /** After any series of writes a read returns the last matching write, and
      None for a genre that was never written. */
  lemma {:induction false} ReplayGet(writes: seq<(string, Report)>, genre: string)
    ensures GetAnalysis(Replay(writes), genre) == LastWrite(writes, genre)
  {
    if |writes| > 0 {
      ReplayGet(writes[..|writes| - 1], genre);
      GetAfterCache(Replay(writes[..|writes| - 1]), writes[|writes| - 1].0, writes[|writes| - 1].1, genre);
    }
  }

  /** A genre that no write mentions (up to case) is not in the cache. */
  lemma {:induction false} NeverCached(writes: seq<(string, Report)>, genre: string)
    requires forall i :: 0 <= i < |writes| ==> Lower(writes[i].0) != Lower(genre)
    ensures GetAnalysis(Replay(writes), genre) == None
  {
    ReplayGet(writes, genre);
    LastWriteNone(writes, genre);
  }

  lemma {:induction false} LastWriteNone(writes: seq<(string, Report)>, genre: string)
    requires forall i :: 0 <= i < |writes| ==> Lower(writes[i].0) != Lower(genre)
    ensures LastWrite(writes, genre) == None
  {
    if |writes| > 0 {
      LastWriteNone(writes[..|writes| - 1], genre);
    }
  }
}

=== FILE: installs.dfy ===
/** `parse_installs` from the scraper: turns a Play Store install label such
    as "1,000,000+" into the number it shows. */
module Installs {
  import opened Wrappers
  import opened Text

  /** `parse_installs(installs_str)`: a missing or empty label is 0; otherwise
      every non-digit character is dropped and the remaining digits are read
      as a decimal number (no digits at all reads as 0). */
  function ParseInstalls(installs: Option<string>): nat {
    if installs.None? || |installs.value| == 0 then 0
    else
      var clean := KeepDigits(installs.value);
      if |clean| == 0 then 0 else DecimalValue(clean)
  }

  /** A missing label, or one without any digit, parses to 0. */
  lemma ParseInstallsNoDigits(installs: Option<string>)
    requires installs.Some? ==> forall i :: 0 <= i < |installs.value| ==> !IsDigit(installs.value[i])
    ensures ParseInstalls(installs) == 0
  {
    if installs.Some? {
      KeepDigitsNone(installs.value);
    }
  }

  /** A present label parses to the decimal value of its digits, whatever
      its length. */
  lemma ParseInstallsIsDigitValue(s: string)
    ensures ParseInstalls(Some(s)) == DecimalValue(KeepDigits(s))
  {
  }

  lemma {:induction false} KeepDigitsAppend(a: string, b: string)
    ensures KeepDigits(a + b) == KeepDigits(a) + KeepDigits(b)
  {
    if |a| > 0 {
      assert (a + b)[1..] == a[1..] + b;
      KeepDigitsAppend(a[1..], b);
    } else {
      assert a + b == b;
    }
  }

  /** A non-digit character anywhere in the label does not change its value. */
  lemma ParseInstallsIgnoresNonDigit(a: string, c: char, b: string)
    requires !IsDigit(c)
    ensures ParseInstalls(Some(a + [c] + b)) == ParseInstalls(Some(a + b))
  {
    KeepDigitsAppend(a + [c], b);
    KeepDigitsAppend(a, [c]);
    KeepDigitsAppend(a, b);
    assert KeepDigits([c]) == [];
    assert KeepDigits(a + [c]) == KeepDigits(a);
    ParseInstallsIsDigitValue(a + [c] + b);
    ParseInstallsIsDigitValue(a + b);
  }

  /** Appending a digit multiplies the value by ten and adds the digit: the
      result is the decimal value of the label's digits, read left to right. */
  lemma ParseInstallsAppendDigit(a: string, d: char)
    requires IsDigit(d)
    ensures ParseInstalls(Some(a + [d])) == ParseInstalls(Some(a)) * 10 + DigitValue(d)
  {
    KeepDigitsAppend(a, [d]);
    assert KeepDigits([d]) == [d];
    var clean := KeepDigits(a) + [d];
    assert clean[..|clean| - 1] == KeepDigits(a);
    ParseInstallsIsDigitValue(a + [d]);
    ParseInstallsIsDigitValue(a);
  }

  lemma KeepDigitsThousand()
    ensures KeepDigits("1,000") == "1000"
  {
  }

  lemma KeepDigitsThousandsGroup()
    ensures KeepDigits(",000+") == "000"
  {
  }

  lemma KeepDigitsMillion()
    ensures KeepDigits("1,000,000+") == "1000000"
  {
    KeepDigitsThousand();
    KeepDigitsThousandsGroup();
    assert "1,000,000+" == "1,000" + ",000+";
    KeepDigitsAppend("1,000", ",000+");
    assert "1000" + "000" == "1000000";
  }

  lemma DecimalMillion()
    ensures Decimal(1000000) == "1000000"
  {
    assert Decimal(1) == "1";
    assert Decimal(10) == "10";
    assert Decimal(100) == "100";
    assert Decimal(1000) == "1000";
    assert Decimal(10000) == "10000";
    assert Decimal(100000) == "100000";
  }

  /** The label the Play Store shows for a million installs. */
  lemma ParseInstallsMillion()
    ensures ParseInstalls(Some("1,000,000+")) == 1000000
  {
    KeepDigitsMillion();
    DecimalMillion();
    DecimalRoundTrip(1000000);
  }

  /** Parsing the printed form of a number gives the number back. */
  lemma ParseInstallsRoundTrip(n: nat)
    ensures ParseInstalls(Some(Decimal(n))) == n
  {
    KeepDigitsOfDigits(Decimal(n));
    DecimalRoundTrip(n);
  }

  /** Printing the parsed value and parsing it again gives the same value. */
  lemma ParseInstallsIdempotent(installs: Option<string>)
    ensures ParseInstalls(Some(Decimal(ParseInstalls(installs)))) == ParseInstalls(installs)
  {
    ParseInstallsRoundTrip(ParseInstalls(installs));
  }
}

=== FILE: report.dfy ===
/** The analysis report: the JSON object the backend's `process_analysis`
    builds, the cache stores, the `/api/analyze` endpoints return and the
    frontend keeps in its `data` state. Field names are the JSON keys in
    camel case. */
module ReportModel {

  /** `metrics`: the four headline figures shown in the metric cards. */
  datatype Metrics = Metrics(
    opportunityScore: int,
    saturationScore: int,
    topAppsCount: int,
    searchVolume: string)

  /** One bar of `sentiment_chart_data`. */
  datatype ChartPoint = ChartPoint(complaint: string, count: int)

  /** One row of `opportunity_matrix` (a competitive gap). */
  datatype Gap = Gap(feature: string, market: int, opportunity: int)

  /** One month of `growth_trend`. */
  datatype MonthPoint = MonthPoint(month: string, downloads: int, revenue: int)

  /** The `priority` of a recommendation: the strings "HIGH", "MEDIUM", "LOW". */
  datatype Priority = High | Medium | Low

  datatype Recommendation = Recommendation(
    priority: Priority,
    title: string,
    reasoning: string,
    impact: string)

  /** One row of `tech_stack`. */
  datatype TechChoice = TechChoice(category: string, recommended: string, reasoning: string)

  datatype Report = Report(
    genre: string,
    metrics: Metrics,
    sentimentChartData: seq<ChartPoint>,
    opportunityMatrix: seq<Gap>,
    growthTrend: seq<MonthPoint>,
    recommendations: seq<Recommendation>,
    techStack: seq<TechChoice>,
    asoKeywords: seq<string>,
    isCached: bool,
    lastUpdated: string)

  predicate IsPercent(x: int) {
    0 <= x <= 100
  }

  /** The invariants the dashboard relies on: every percentage-typed field
      lies in [0, 100] and every count is non-negative. */
  predicate WellFormed(r: Report) {
    && IsPercent(r.metrics.opportunityScore)
    && IsPercent(r.metrics.saturationScore)
    && r.metrics.topAppsCount >= 0
    && (forall i :: 0 <= i < |r.sentimentChartData| ==> r.sentimentChartData[i].count >= 0)
    && (forall i :: 0 <= i < |r.opportunityMatrix| ==>
          IsPercent(r.opportunityMatrix[i].market) && IsPercent(r.opportunityMatrix[i].opportunity))
  }
}

=== FILE: scraper.dfy ===
/** The scoring part of `run_full_analysis`: saturation, the five feature
    gaps, the opportunity score, the tech stack and the two roadmap
    recommendations, assembled into the raw analysis the backend reshapes.
    Network scraping, the float-valued rating average and the random draws
    enter as parameters. */
module Scraper {
  import opened Wrappers
  import opened Text
  import opened ReportModel
  import Sentiment

  /** One app found by `search_genre`: `installs_numeric` is the parsed
      install label, hence never negative. */
  datatype AppInfo = AppInfo(appId: string, title: string, installs: nat)

  /** The dictionary `run_full_analysis` returns. */
  datatype RawAnalysis = RawAnalysis(
    genre: string,
    opportunityScore: int,
    saturationScore: int,
    apps: seq<AppInfo>,
    sentiment: seq<Sentiment.Complaint>,
    gaps: seq<Gap>,
    techStack: seq<TechChoice>,
    recommendations: seq<Recommendation>)

  /** What the backend needs from a raw analysis to build a report that
      satisfies the dashboard's invariants. */
  predicate WellFormedRaw(raw: RawAnalysis) {
    && IsPercent(raw.opportunityScore)
    && IsPercent(raw.saturationScore)
    && (forall i :: 0 <= i < |raw.sentiment| ==> raw.sentiment[i].count >= 0)
    && (forall i :: 0 <= i < |raw.gaps| ==> IsPercent(raw.gaps[i].market) && IsPercent(raw.gaps[i].opportunity))
  }

  const Million: nat := 1000000

  function TotalInstalls(apps: seq<AppInfo>): nat {
    if |apps| == 0 then 0 else TotalInstalls(apps[..|apps| - 1]) + apps[|apps| - 1].installs
  }

  /** Python's `max(lo, min(hi, x))`. */
  function Clamp(lo: int, hi: int, x: int): (r: int)
    requires lo <= hi
    ensures lo <= r <= hi
    ensures lo <= x <= hi ==> r == x
    ensures x < lo ==> r == lo
    ensures x > hi ==> r == hi
  {
    if x < lo then lo else if x > hi then hi else x
  }

  /** `min(int(total_installs / 1000000), 100)`: one point per million
      installs, capped at 100. */
  function Saturation(totalInstalls: nat): (s: int)
    ensures 0 <= s <= 100
    ensures totalInstalls < 100 * Million ==> s * Million <= totalInstalls < (s + 1) * Million
    ensures totalInstalls >= 100 * Million ==> s == 100
  {
    var points := totalInstalls / Million;
    if points < 100 then points else 100
  }

  /** The `feature_sets` table and the `.get` default. */
  const ProductivityFeatures: seq<string> := ["AI Task Prep", "Offline Sync", "Collab Tools", "Privacy Shield", "Automation"]
  const FitnessFeatures: seq<string> := ["Heart Tracking", "Meal Planner", "Social Community", "Wearable Sync", "AI Coach"]
  const FinanceFeatures: seq<string> := ["Crypto Sync", "Tax Export", "Budgeting Bot", "Fraud Alert", "Goal Tracker"]
  const DefaultFeatures: seq<string> := ["AI Logic", "Offline Mode", "Customization", "Analytics", "Security"]

  /** `feature_sets.get(genre, default)`: a case-sensitive lookup. */
  function FeaturesFor(genre: string): (features: seq<string>)
    ensures |features| == 5
  {
    if genre == "Productivity" then ProductivityFeatures
    else if genre == "Fitness" then FitnessFeatures
    else if genre == "Finance" then FinanceFeatures
    else DefaultFeatures
  }

  /** `complaint_map.get(category, 0)`, where the map is built from the
      analyzer's result by a dict comprehension (a later entry for the same
      category replaces an earlier one). */
  function ComplaintCount(results: seq<Sentiment.Complaint>, category: string): int {
    if |results| == 0 then 0
    else if results[|results| - 1].category == category then results[|results| - 1].count
    else ComplaintCount(results[..|results| - 1], category)
  }

  /** `(complaint_map['Bugs/Crashes'] + complaint_map['Missing Features']) // 2`;
      Dafny's division by a positive divisor floors, as Python's `//` does. */
  function PainFactor(results: seq<Sentiment.Complaint>): (pain: int)
    ensures var total := ComplaintCount(results, "Bugs/Crashes") + ComplaintCount(results, "Missing Features");
      2 * pain <= total < 2 * pain + 2
  {
    (ComplaintCount(results, "Bugs/Crashes") + ComplaintCount(results, "Missing Features")) / 2
  }

  /** The feature matrix: one gap per feature, in the feature list's order.
      `deltas[i]` is the `random.randint(-10, 10)` drawn for feature `i`;
      `baseCoverage` is `int((avg_rating / 5) * 100)`. */
  function FeatureGaps(features: seq<string>, baseCoverage: int, deltas: seq<int>,
                       results: seq<Sentiment.Complaint>): (gaps: seq<Gap>)
    requires |deltas| == |features|
    ensures |gaps| == |features|
    ensures forall i :: 0 <= i < |gaps| ==> gaps[i].feature == features[i]
    ensures forall i :: 0 <= i < |gaps| ==> 20 <= gaps[i].market <= 85
    ensures forall i :: 0 <= i < |gaps| && 20 <= baseCoverage + deltas[i] <= 85 ==>
              gaps[i].market == baseCoverage + deltas[i]
    ensures forall i :: 0 <= i < |gaps| ==> gaps[i].market == Clamp(20, 85, baseCoverage + deltas[i])
    ensures forall i :: 0 <= i < |gaps| ==> 30 <= gaps[i].opportunity <= 95
    ensures forall i, j :: 0 <= i < |gaps| && 0 <= j < |gaps| ==> gaps[i].opportunity == gaps[j].opportunity
    ensures forall i :: 0 <= i < |gaps| ==>
              gaps[i].opportunity == Clamp(30, 95, (100 - baseCoverage) + PainFactor(results))
  {
    var opportunity := Clamp(30, 95, (100 - baseCoverage) + PainFactor(results));
    seq(|features|, i requires 0 <= i < |features| =>
      Gap(features[i], Clamp(20, 85, baseCoverage + deltas[i]), opportunity))
  }

  /** The outer `max(10, min(95, ...))` of the opportunity score; `inner` is
      the float expression `int(100 - saturation * 0.5 + (5 - avg_rating) * 10)`. */
  function OpportunityScore(inner: int): (score: int)
    ensures 10 <= score <= 95
    ensures 10 <= inner <= 95 ==> score == inner
    ensures inner < 10 ==> score == 10
    ensures inner > 95 ==> score == 95
  {
    Clamp(10, 95, inner)
  }

  /** The fixed reasoning texts of the tech stack and the roadmap. */
  const FrameworkReasoning: string := "Optimal for rapid MVP deployment."
  const BackendReasoning: string := "Asynchronous handling of scraping data."
  const DatabaseReasoning: string := "Reliable storage for app metadata."
  const UsabilityReasoning: string := "Address core usability issues reported in competitor reviews."

  /** The fixed four-layer tech stack; only the framework depends on the data. */
  function TechStack(saturation: int, genre: string): (stack: seq<TechChoice>)
    ensures |stack| == 4
    ensures stack[0].category == "Framework" && stack[1].category == "Backend"
    ensures stack[2].category == "Database" && stack[3].category == "AI/ML"
    ensures stack[0].recommended == "React Native" <==> saturation > 50
    ensures stack[0].recommended == "Flutter" <==> saturation <= 50
    ensures stack[3].reasoning == "Used to automate " + genre + " data analysis."
  {
    [
      TechChoice("Framework", if saturation > 50 then "React Native" else "Flutter", FrameworkReasoning),
      TechChoice("Backend", "FastAPI", BackendReasoning),
      TechChoice("Database", "PostgreSQL", DatabaseReasoning),
      TechChoice("AI/ML", "OpenAI API", "Used to automate " + genre + " data analysis.")
    ]
  }

  /** The two roadmap items: build the genre's first feature, then fix the UX. */
  function Recommendations(genre: string, features: seq<string>, results: seq<Sentiment.Complaint>): (recs: seq<Recommendation>)
    requires |features| > 0
    ensures |recs| == 2
    ensures recs[0].priority == High <==> ComplaintCount(results, "Bugs/Crashes") > 3
    ensures recs[0].priority == Medium <==> ComplaintCount(results, "Bugs/Crashes") <= 3
    ensures recs[1].priority == High <==> ComplaintCount(results, "Poor UI") > 5
    ensures recs[1].priority == Medium <==> ComplaintCount(results, "Poor UI") <= 5
    ensures recs[0].title == "Develop " + features[0]
    ensures recs[1].title == "UX Optimization"
  {
    [
      Recommendation(
        if ComplaintCount(results, "Bugs/Crashes") > 3 then High else Medium,
        "Develop " + features[0],
        "Significant gap found in existing " + genre + " applications.",
        "Market Acquisition"),
      Recommendation(
        if ComplaintCount(results, "Poor UI") > 5 then High else Medium,
        "UX Optimization",
        UsabilityReasoning,
        "User Retention")
    ]
  }

  /** `run_full_analysis(genre)` once the store has been scraped: `apps` are
      the search results, `reviews` the reviews of the first three apps,
      `baseCoverage` and `opportunityInner` the float-derived values and
      `deltas` the five random market draws. */
  function RunFullAnalysis(genre: string, apps: seq<AppInfo>, reviews: seq<Sentiment.Review>,
                           baseCoverage: int, deltas: seq<int>, opportunityInner: int): (raw: RawAnalysis)
    requires |deltas| == |FeaturesFor(genre)|
    ensures raw.genre == genre && raw.apps == apps
    ensures WellFormedRaw(raw)
    ensures 10 <= raw.opportunityScore <= 95
    ensures raw.saturationScore == Saturation(TotalInstalls(apps))
    ensures |raw.sentiment| <= Sentiment.TopN
    ensures |raw.gaps| == 5 && |raw.techStack| == 4 && |raw.recommendations| == 2
    ensures forall i :: 0 <= i < |raw.gaps| ==> raw.gaps[i].feature == FeaturesFor(genre)[i]
    ensures raw.sentiment == Sentiment.AnalyzeReviews(reviews)
    ensures raw.opportunityScore == OpportunityScore(opportunityInner)
    ensures raw.gaps == FeatureGaps(FeaturesFor(genre), baseCoverage, deltas, raw.sentiment)
    ensures raw.techStack == TechStack(raw.saturationScore, genre)
    ensures raw.recommendations == Recommendations(genre, FeaturesFor(genre), raw.sentiment)
  {
    var features := FeaturesFor(genre);
    var sentiment := Sentiment.AnalyzeReviews(reviews);
    var saturation := Saturation(TotalInstalls(apps));
    var gaps := FeatureGaps(features, baseCoverage, deltas, sentiment);
    var raw := RawAnalysis(genre, OpportunityScore(opportunityInner), saturation, apps, sentiment, gaps,
                           TechStack(saturation, genre), Recommendations(genre, features, sentiment));
    AssembledShape(raw, FeaturesFor(genre));
    raw
  }

  /** The clamps make every score a percentage, and the parts have the
      lengths the dashboard lays out. */
  lemma AssembledShape(raw: RawAnalysis, features: seq<string>)
    requires |features| == 5
    requires 10 <= raw.opportunityScore <= 95 && 0 <= raw.saturationScore <= 100
    requires |raw.sentiment| <= Sentiment.TopN
    requires forall i :: 0 <= i < |raw.sentiment| ==> raw.sentiment[i].count >= 1
    requires |raw.gaps| == |features|
    requires forall i :: 0 <= i < |raw.gaps| ==> raw.gaps[i].feature == features[i]
    requires forall i :: 0 <= i < |raw.gaps| ==> 20 <= raw.gaps[i].market <= 85
    requires forall i :: 0 <= i < |raw.gaps| ==> 30 <= raw.gaps[i].opportunity <= 95
    requires |raw.techStack| == 4 && |raw.recommendations| == 2
    ensures WellFormedRaw(raw)
    ensures |raw.gaps| == 5
  {
  }

  /** On the analyzer's own result the comprehension's lookup finds the
      category's tally: the recommendation thresholds compare review counts. */
  lemma {:induction false} ComplaintCountOfAnalysis(results: seq<Sentiment.Complaint>, reviews: seq<Sentiment.Review>, category: string)
    requires Sentiment.DistinctCategories(results)
    requires forall i :: 0 <= i < |results| ==> results[i].count == Sentiment.Tally(reviews, results[i].category)
    requires forall x :: Sentiment.Tally(reviews, x) > 0 ==> exists i :: 0 <= i < |results| && results[i].category == x
    ensures ComplaintCount(results, category) == Sentiment.Tally(reviews, category)
  {
    var n := |results|;
    if exists i :: 0 <= i < n && results[i].category == category {
      var i :| 0 <= i < n && results[i].category == category;
      ComplaintCountAt(results, i);
    } else {
      ComplaintCountAbsent(results, category);
    }
  }

  lemma {:induction false} ComplaintCountAt(results: seq<Sentiment.Complaint>, i: int)
    requires Sentiment.DistinctCategories(results)
    requires 0 <= i < |results|
    ensures ComplaintCount(results, results[i].category) == results[i].count
  {
    var n := |results|;
    if i < n - 1 {
      assert results[n - 1].category != results[i].category;
      assert results[..n - 1][i] == results[i];
      ComplaintCountAt(results[..n - 1], i);
    }
  }

  lemma {:induction false} ComplaintCountAbsent(results: seq<Sentiment.Complaint>, category: string)
    requires forall i :: 0 <= i < |results| ==> results[i].category != category
    ensures ComplaintCount(results, category) == 0
  {
    if |results| > 0 {
      ComplaintCountAbsent(results[..|results| - 1], category);
    }
  }

  /** The comprehension keeps the last entry for a category: the lookup
      gives the count of the last entry carrying it. */
  lemma {:induction false} ComplaintCountLastWins(results: seq<Sentiment.Complaint>, category: string, i: int)
    requires 0 <= i < |results| && results[i].category == category
    requires forall j :: i < j < |results| ==> results[j].category != category
    ensures ComplaintCount(results, category) == results[i].count
  {
    var n := |results|;
    if i < n - 1 {
      assert results[..n - 1][i] == results[i];
      ComplaintCountLastWins(results[..n - 1], category, i);
    }
  }

  /** On the analyzer's own result the pain factor is half the number of
      negative reviews reporting crashes plus those reporting missing
      features, rounded down. */
  lemma PainFactorOfAnalysis(reviews: seq<Sentiment.Review>)
    ensures PainFactor(Sentiment.AnalyzeReviews(reviews))
              == (Sentiment.Tally(reviews, "Bugs/Crashes") + Sentiment.Tally(reviews, "Missing Features")) / 2
  {
    var results := Sentiment.AnalyzeReviews(reviews);
    ComplaintCountOfAnalysis(results, reviews, "Bugs/Crashes");
    ComplaintCountOfAnalysis(results, reviews, "Missing Features");
  }

  /** The roadmap priorities of a full analysis follow the reviews: the first
      item is HIGH exactly when more than three negative reviews mention a
      crash, freeze, bug or error, the second exactly when more than five
      call the app ugly, confusing or hard to use. */
  lemma FirstPriorityFromReviews(genre: string, apps: seq<AppInfo>, reviews: seq<Sentiment.Review>,
                                 baseCoverage: int, deltas: seq<int>, opportunityInner: int)
    requires |deltas| == |FeaturesFor(genre)|
    ensures var recs := RunFullAnalysis(genre, apps, reviews, baseCoverage, deltas, opportunityInner).recommendations;
      && (recs[0].priority == High <==> Sentiment.Tally(reviews, "Bugs/Crashes") > 3)
      && (recs[1].priority == High <==> Sentiment.Tally(reviews, "Poor UI") > 5)
  {
    var results := Sentiment.AnalyzeReviews(reviews);
    ComplaintCountOfAnalysis(results, reviews, "Bugs/Crashes");
    ComplaintCountOfAnalysis(results, reviews, "Poor UI");
  }
}

=== FILE: sentiment.dfy ===
/** `SentimentAnalyzer.analyze_reviews` from the scraper: counts, over the
    negative reviews, how many mention each of five complaint categories, and
    reports the categories by decreasing count. */
module Sentiment {
  import opened Wrappers
  import opened Text

  /** One scraped review: its text and its star score (absent when the
      review record has no `score` key). */
  datatype Review = Review(content: string, score: Option<int>)

  /** One entry of the complaint counter, and of the analyzer's result. */
  datatype Complaint = Complaint(category: string, count: int)

  type KeywordTable = seq<(string, seq<string>)>

  /** The analyzer's keyword dictionary, in its insertion order. */
  const Keywords: KeywordTable := [
    ("Too Many Ads", ["ad", "ads", "advert"]),
    ("Bugs/Crashes", ["crash", "freeze", "bug", "error"]),
    ("Expensive", ["price", "cost", "subscription"]),
    ("Poor UI", ["ugly", "confusing", "hard to use"]),
    ("Missing Features", ["wish", "need", "missing"])
  ]

  /** At most this many categories are reported (`most_common(5)`). */
  const TopN: nat := 5

  function Names(table: KeywordTable): seq<string> {
    seq(|table|, i requires 0 <= i < |table| => table[i].0)
  }

  predicate DistinctNames(table: KeywordTable) {
    forall i, j :: 0 <= i < j < |table| ==> table[i].0 != table[j].0
  }

  /** The keywords listed for `category`; none for a name not in the table. */
  function KeywordsIn(table: KeywordTable, category: string): seq<string> {
    if |table| == 0 then []
    else if table[0].0 == category then table[0].1
    else KeywordsIn(table[1..], category)
  }

  /** A review counts as a complaint when its score, defaulting to 5, is at most 3. */
  predicate IsNegative(r: Review) {
    r.score.GetOr(5) <= 3
  }

  /** A negative review raises `category` when one of its keywords occurs in
      the lower-cased text. */
  predicate Raises(r: Review, category: string) {
    IsNegative(r) && ContainsAny(Lower(r.content), KeywordsIn(Keywords, category))
  }

  /** Reference count: how many of the reviews raise `category`. */
  function Tally(reviews: seq<Review>, category: string): nat {
    if |reviews| == 0 then 0
    else Tally(reviews[..|reviews| - 1], category) + (if Raises(reviews[|reviews| - 1], category) then 1 else 0)
  }

  function NegativeCount(reviews: seq<Review>): nat {
    if |reviews| == 0 then 0
    else NegativeCount(reviews[..|reviews| - 1]) + (if IsNegative(reviews[|reviews| - 1]) then 1 else 0)
  }

  lemma {:induction false} TallyBounded(reviews: seq<Review>, category: string)
    ensures Tally(reviews, category) <= NegativeCount(reviews)
  {
    if |reviews| > 0 {
      TallyBounded(reviews[..|reviews| - 1], category);
    }
  }

  // ---------------------------------------------------------------------
  // The `Counter`: entries in insertion order, one per category seen.

  /** `counter[category]`: 0 for a category never counted. */
  function CountOf(counter: seq<Complaint>, category: string): int {
    if |counter| == 0 then 0
    else if counter[0].category == category then counter[0].count
    else CountOf(counter[1..], category)
  }

  /** `counter[category] += 1`: an unseen category is appended with count 1. */
  function Bump(counter: seq<Complaint>, category: string): seq<Complaint> {
    if |counter| == 0 then [Complaint(category, 1)]
    else if counter[0].category == category then [counter[0].(count := counter[0].count + 1)] + counter[1..]
    else [counter[0]] + Bump(counter[1..], category)
  }

  predicate DistinctCategories(s: seq<Complaint>) {
    forall i, j :: 0 <= i < j < |s| ==> s[i].category != s[j].category
  }

  predicate ValidCounter(counter: seq<Complaint>) {
    && DistinctCategories(counter)
    && forall i :: 0 <= i < |counter| ==> counter[i].count >= 1
  }

  /** One pass of the inner loop over the keyword table for one review text. */
  function BumpMatched(counter: seq<Complaint>, table: KeywordTable, text: string): seq<Complaint>
    decreases |table|
  {
    if |table| == 0 then counter
    else
      var next := if ContainsAny(text, table[0].1) then Bump(counter, table[0].0) else counter;
      BumpMatched(next, table[1..], text)
  }

  /** The body of the outer loop for one review. */
  function CountReview(counter: seq<Complaint>, r: Review): seq<Complaint> {
    if IsNegative(r) then BumpMatched(counter, Keywords, Lower(r.content)) else counter
  }

  /** The counter after the outer loop has run over all the reviews. */
  function CountAll(reviews: seq<Review>): seq<Complaint> {
    if |reviews| == 0 then []
    else CountReview(CountAll(reviews[..|reviews| - 1]), reviews[|reviews| - 1])
  }

  lemma {:induction false} BumpCount(counter: seq<Complaint>, category: string, x: string)
    ensures CountOf(Bump(counter, category), x) == CountOf(counter, x) + (if x == category then 1 else 0)
  {
    if |counter| > 0 && counter[0].category != category {
      BumpCount(counter[1..], category, x);
    }
  }

  lemma {:induction false} CountOfAbsent(counter: seq<Complaint>, x: string)
    requires forall i :: 0 <= i < |counter| ==> counter[i].category != x
    ensures CountOf(counter, x) == 0
  {
    if |counter| > 0 {
      CountOfAbsent(counter[1..], x);
    }
  }

  lemma {:induction false} BumpValid(counter: seq<Complaint>, category: string)
    requires ValidCounter(counter)
    ensures ValidCounter(Bump(counter, category))
    ensures |Bump(counter, category)| <= |counter| + 1
    ensures forall i :: 0 <= i < |Bump(counter, category)| ==>
              Bump(counter, category)[i].category == category ||
              exists j :: 0 <= j < |counter| && counter[j].category == Bump(counter, category)[i].category
  {
    if |counter| > 0 && counter[0].category != category {
      BumpValid(counter[1..], category);
      var b := Bump(counter, category);
      var tail := Bump(counter[1..], category);
      assert b == [counter[0]] + tail;
      forall i | 0 <= i < |tail|
        ensures tail[i].category != counter[0].category
      {
        if tail[i].category != category {
          var j :| 0 <= j < |counter[1..]| && counter[1..][j].category == tail[i].category;
          assert counter[j + 1].category == tail[i].category;
        }
      }
      forall i | 0 <= i < |b|
        ensures b[i].category == category || exists j :: 0 <= j < |counter| && counter[j].category == b[i].category
      {
        if i == 0 {
          assert counter[0].category == b[i].category;
        } else if b[i].category != category {
          var j :| 0 <= j < |counter[1..]| && counter[1..][j].category == tail[i - 1].category;
          assert counter[j + 1].category == b[i].category;
        }
      }
    }
  }

  /** The inner loop raises `x` by one exactly when `x` is a table entry
      whose keywords occur in the text. */
  lemma {:induction false} BumpMatchedCount(counter: seq<Complaint>, table: KeywordTable, text: string, x: string)
    requires DistinctNames(table)
    ensures CountOf(BumpMatched(counter, table, text), x)
         == CountOf(counter, x) + (if ContainsAny(text, KeywordsIn(table, x)) then 1 else 0)
    decreases |table|
  {
    if |table| > 0 {
      var next := if ContainsAny(text, table[0].1) then Bump(counter, table[0].0) else counter;
      BumpMatchedCount(next, table[1..], text, x);
      if ContainsAny(text, table[0].1) {
        BumpCount(counter, table[0].0, x);
      }
      if table[0].0 == x {
        KeywordsInAbsent(table[1..], x);
      }
    }
  }

  lemma {:induction false} KeywordsInAbsent(table: KeywordTable, x: string)
    requires forall i :: 0 <= i < |table| ==> table[i].0 != x
    ensures KeywordsIn(table, x) == []
  {
    if |table| > 0 {
      KeywordsInAbsent(table[1..], x);
    }
  }

  lemma {:induction false} BumpMatchedValid(counter: seq<Complaint>, table: KeywordTable, text: string)
    requires ValidCounter(counter)
    ensures ValidCounter(BumpMatched(counter, table, text))
    decreases |table|
  {
    if |table| > 0 {
      var next := if ContainsAny(text, table[0].1) then Bump(counter, table[0].0) else counter;
      if ContainsAny(text, table[0].1) {
        BumpValid(counter, table[0].0);
      }
      BumpMatchedValid(next, table[1..], text);
    }
  }

  lemma KeywordsDistinct()
    ensures DistinctNames(Keywords)
  {
  }

  /** After the outer loop, the counter holds for every category exactly the
      number of reviews that raise it, and it stays a valid counter. */
  lemma {:induction false} CountAllMatchesTally(reviews: seq<Review>)
    ensures ValidCounter(CountAll(reviews))
    ensures forall x :: CountOf(CountAll(reviews), x) == Tally(reviews, x)
  {
    if |reviews| > 0 {
      var init := reviews[..|reviews| - 1];
      var last := reviews[|reviews| - 1];
      CountAllMatchesTally(init);
      KeywordsDistinct();
      if IsNegative(last) {
        BumpMatchedValid(CountAll(init), Keywords, Lower(last.content));
        forall x
          ensures CountOf(CountAll(reviews), x) == Tally(reviews, x)
        {
          BumpMatchedCount(CountAll(init), Keywords, Lower(last.content), x);
        }
      }
    }
  }

  /** In a valid counter every entry holds that category's count. */
  lemma {:induction false} CountOfEntry(counter: seq<Complaint>, i: int)
    requires DistinctCategories(counter)
    requires 0 <= i < |counter|
    ensures CountOf(counter, counter[i].category) == counter[i].count
  {
    if i > 0 {
      assert counter[0].category != counter[i].category;
      CountOfEntry(counter[1..], i - 1);
    }
  }

  /** A category with a positive count has an entry. */
  lemma {:induction false} CountOfPositive(counter: seq<Complaint>, x: string)
    requires CountOf(counter, x) > 0
    ensures exists i :: 0 <= i < |counter| && counter[i].category == x
  {
    if counter[0].category != x {
      CountOfPositive(counter[1..], x);
      var i :| 0 <= i < |counter[1..]| && counter[1..][i].category == x;
      assert counter[i + 1].category == x;
    }
  }

  /** A category outside the keyword table is never raised. */
  lemma {:induction false} TallyUnknown(reviews: seq<Review>, x: string)
    requires x !in Names(Keywords)
    ensures Tally(reviews, x) == 0
  {
    forall i | 0 <= i < |Keywords|
      ensures Keywords[i].0 != x
    {
      assert Names(Keywords)[i] == Keywords[i].0;
    }
    KeywordsInAbsent(Keywords, x);
    TallyUnknownWords(reviews, x);
  }

  lemma {:induction false} TallyUnknownWords(reviews: seq<Review>, x: string)
    requires KeywordsIn(Keywords, x) == []
    ensures Tally(reviews, x) == 0
  {
    if |reviews| > 0 {
      TallyUnknownWords(reviews[..|reviews| - 1], x);
    }
  }

  /** A sequence of distinct names drawn from a finite set is no longer than the set. */
  lemma {:induction false} DistinctWithin(s: seq<string>, names: set<string>)
    requires forall i, j :: 0 <= i < j < |s| ==> s[i] != s[j]
    requires forall i :: 0 <= i < |s| ==> s[i] in names
    ensures |s| <= |names|
  {
    if |s| > 0 {
      var rest := names - {s[0]};
      forall i | 0 <= i < |s[1..]|
        ensures s[1..][i] in rest
      {
        assert s[i + 1] != s[0];
      }
      DistinctWithin(s[1..], rest);
    }
  }

  /** The counter never holds more entries than there are categories. */
  lemma CountAllSize(reviews: seq<Review>)
    ensures |CountAll(reviews)| <= TopN
  {
    var c := CountAll(reviews);
    CountAllMatchesTally(reviews);
    var cats := seq(|c|, i requires 0 <= i < |c| => c[i].category);
    var names := {"Too Many Ads", "Bugs/Crashes", "Expensive", "Poor UI", "Missing Features"};
    forall i | 0 <= i < |cats|
      ensures cats[i] in names
    {
      CountOfEntry(c, i);
      if cats[i] !in Names(Keywords) {
        TallyUnknown(reviews, cats[i]);
      } else {
        var k :| 0 <= k < |Names(Keywords)| && Names(Keywords)[k] == cats[i];
        assert Keywords[k].0 == cats[i];
      }
    }
    DistinctWithin(cats, names);
  }

  /** Adding one review to the input raises each category's count by one
      when the review raises it and leaves it alone otherwise: a review with
      a score above 3, or with no score, counts for nothing, and a review
      naming several keywords of one category counts once for it. */
  lemma OneReviewCountsOnce(reviews: seq<Review>, r: Review, x: string)
    ensures CountOf(CountAll(reviews + [r]), x)
         == CountOf(CountAll(reviews), x) + (if Raises(r, x) then 1 else 0)
    ensures !IsNegative(r) ==> CountAll(reviews + [r]) == CountAll(reviews)
  {
    var all := reviews + [r];
    assert all[..|all| - 1] == reviews;
    CountAllMatchesTally(all);
    CountAllMatchesTally(reviews);
  }

  /** A negative review raises a category exactly when one of that
      category's keywords occurs in its lower-cased text. */
  lemma RaisesIffKeyword(r: Review, category: string)
    ensures var words := KeywordsIn(Keywords, category);
      Raises(r, category) <==> IsNegative(r) && exists k :: 0 <= k < |words| && Contains(Lower(r.content), words[k])
  {
    var words := KeywordsIn(Keywords, category);
    ContainsAnyIffSome(Lower(r.content), words);
    assert ContainsAny(Lower(r.content), words) <==> exists k :: 0 <= k < |words| && Contains(Lower(r.content), words[k]);
  }

  /** Keywords match as substrings: a one-star "bad app" is an ads
      complaint, because "ad" occurs in "bad". */
  lemma SubstringMatches()
    ensures Raises(Review("Bad app", Some(1)), "Too Many Ads")
  {
    assert Lower("Bad app") == "bad app";
    assert "bad app"[1..3] == "ad";
    assert KeywordsIn(Keywords, "Too Many Ads") == ["ad", "ads", "advert"];
    ContainsIffOccurs("bad app", "ad");
    assert OccursAt("bad app", "ad", 1);
  }

  // ---------------------------------------------------------------------
  // `most_common`: a stable sort by decreasing count.

  predicate NonIncreasing(s: seq<Complaint>) {
    forall i, j :: 0 <= i < j < |s| ==> s[i].count >= s[j].count
  }

  /** The entries of `s` whose count is `v`, in order. */
  function WithCount(s: seq<Complaint>, v: int): seq<Complaint> {
    if |s| == 0 then []
    else (if s[0].count == v then [s[0]] else []) + WithCount(s[1..], v)
  }

  /** Places `x` before the first entry whose count does not exceed its own. */
  function InsertByCount(x: Complaint, t: seq<Complaint>): seq<Complaint> {
    if |t| == 0 || x.count >= t[0].count then [x] + t
    else [t[0]] + InsertByCount(x, t[1..])
  }

  /** Python's `sorted(items, key=count, reverse=True)`, which is stable. */
  function SortByCount(s: seq<Complaint>): seq<Complaint> {
    if |s| == 0 then [] else InsertByCount(s[0], SortByCount(s[1..]))
  }

  lemma {:induction false} InsertPermutes(x: Complaint, t: seq<Complaint>)
    ensures multiset(InsertByCount(x, t)) == multiset([x]) + multiset(t)
    ensures |InsertByCount(x, t)| == |t| + 1
  {
    if !(|t| == 0 || x.count >= t[0].count) {
      InsertPermutes(x, t[1..]);
      assert t == [t[0]] + t[1..];
    }
  }

  lemma {:induction false} InsertSorted(x: Complaint, t: seq<Complaint>)
    requires NonIncreasing(t)
    ensures NonIncreasing(InsertByCount(x, t))
  {
    if |t| == 0 || x.count >= t[0].count {
      var r := [x] + t;
      assert forall j :: 0 < j < |r| ==> r[j] == t[j - 1];
    } else {
      var tail := InsertByCount(x, t[1..]);
      InsertSorted(x, t[1..]);
      InsertPermutes(x, t[1..]);
      var r := [t[0]] + tail;
      forall j | 0 < j < |r|
        ensures r[0].count >= r[j].count
      {
        assert r[j] == tail[j - 1];
        assert r[j] in multiset(tail);
        if r[j] != x {
          assert r[j] in multiset(t[1..]);
          var k :| 0 <= k < |t[1..]| && t[1..][k] == r[j];
          assert t[k + 1] == r[j];
        }
      }
      assert forall j :: 0 < j < |r| ==> r[j] == tail[j - 1];
    }
  }

  lemma WithCountCons(y: Complaint, t: seq<Complaint>, v: int)
    ensures WithCount([y] + t, v) == (if y.count == v then [y] else []) + WithCount(t, v)
  {
    assert ([y] + t)[1..] == t;
  }

  lemma {:induction false} InsertStable(x: Complaint, t: seq<Complaint>, v: int)
    ensures WithCount(InsertByCount(x, t), v) == (if x.count == v then [x] else []) + WithCount(t, v)
  {
    if |t| == 0 || x.count >= t[0].count {
      WithCountCons(x, t, v);
    } else {
      var tail := InsertByCount(x, t[1..]);
      assert InsertByCount(x, t) == [t[0]] + tail;
      InsertStable(x, t[1..], v);
      WithCountCons(t[0], tail, v);
      WithCountCons(t[0], t[1..], v);
      assert t == [t[0]] + t[1..];
      var rest := WithCount(t[1..], v);
      if x.count == v {
        // t[0] has a larger count, so it cannot also have count v.
        assert WithCount(tail, v) == [x] + rest;
        assert WithCount(t, v) == rest;
      } else if t[0].count == v {
        assert WithCount(tail, v) == rest;
        assert WithCount(t, v) == [t[0]] + rest;
      } else {
        assert WithCount(tail, v) == rest;
        assert WithCount(t, v) == rest;
      }
    }
  }

  /** Sorting keeps exactly the same entries, orders them by decreasing count,
      and keeps entries of equal count in their original relative order. */
  lemma {:induction false} SortByCountFacts(s: seq<Complaint>)
    ensures multiset(SortByCount(s)) == multiset(s)
    ensures |SortByCount(s)| == |s|
    ensures NonIncreasing(SortByCount(s))
    ensures forall v :: WithCount(SortByCount(s), v) == WithCount(s, v)
  {
    if |s| > 0 {
      SortByCountFacts(s[1..]);
      InsertPermutes(s[0], SortByCount(s[1..]));
      InsertSorted(s[0], SortByCount(s[1..]));
      forall v
        ensures WithCount(SortByCount(s), v) == WithCount(s, v)
      {
        InsertStable(s[0], SortByCount(s[1..]), v);
      }
      assert s == [s[0]] + s[1..];
    }
  }

  lemma {:induction false} InsertDistinct(x: Complaint, t: seq<Complaint>)
    requires DistinctCategories(t)
    requires forall i :: 0 <= i < |t| ==> t[i].category != x.category
    ensures DistinctCategories(InsertByCount(x, t))
  {
    if !(|t| == 0 || x.count >= t[0].count) {
      var tail := InsertByCount(x, t[1..]);
      InsertDistinct(x, t[1..]);
      InsertPermutes(x, t[1..]);
      forall j | 0 <= j < |tail|
        ensures tail[j].category != t[0].category
      {
        assert tail[j] in multiset(tail);
        if tail[j] != x {
          var k :| 0 <= k < |t[1..]| && t[1..][k] == tail[j];
          assert t[k + 1] == tail[j];
        }
      }
      var r := [t[0]] + tail;
      assert forall j :: 0 < j < |r| ==> r[j] == tail[j - 1];
    }
  }

  lemma {:induction false} SortByCountDistinct(s: seq<Complaint>)
    requires DistinctCategories(s)
    ensures DistinctCategories(SortByCount(s))
  {
    if |s| > 0 {
      SortByCountDistinct(s[1..]);
      var t := SortByCount(s[1..]);
      SortByCountFacts(s[1..]);
      forall i | 0 <= i < |t|
        ensures t[i].category != s[0].category
      {
        assert t[i] in multiset(s[1..]);
        var k :| 0 <= k < |s[1..]| && s[1..][k] == t[i];
        assert s[k + 1] == t[i];
      }
      InsertDistinct(s[0], t);
    }
  }

  /** `counter.most_common(n)`: the `n` largest counts, as a stable sort
      by decreasing count cut to `n` entries. */
  function MostCommon(counter: seq<Complaint>, n: nat): (r: seq<Complaint>)
    ensures |r| <= n
    ensures |r| == if |counter| <= n then |counter| else n
    ensures NonIncreasing(r)
    ensures multiset(r) <= multiset(counter)
    ensures forall x, i :: x in multiset(counter) - multiset(r) && 0 <= i < |r| ==> x.count <= r[i].count
  {
    SortByCountFacts(counter);
    var sorted := SortByCount(counter);
    if |sorted| <= n then sorted
    else
      TakeLargest(sorted, n);
      sorted[..n]
  }

  /** Cutting a sorted sequence keeps a sub-multiset whose every entry counts
      at least as much as every entry cut off. */
  lemma TakeLargest(sorted: seq<Complaint>, n: nat)
    requires NonIncreasing(sorted)
    requires n <= |sorted|
    ensures NonIncreasing(sorted[..n])
    ensures multiset(sorted[..n]) <= multiset(sorted)
    ensures forall x, i :: x in multiset(sorted) - multiset(sorted[..n]) && 0 <= i < n ==> x.count <= sorted[i].count
  {
    assert sorted == sorted[..n] + sorted[n..];
    assert multiset(sorted) == multiset(sorted[..n]) + multiset(sorted[n..]);
    forall x, i | x in multiset(sorted) - multiset(sorted[..n]) && 0 <= i < n
      ensures x.count <= sorted[i].count
    {
      assert x in multiset(sorted[n..]);
      var k :| 0 <= k < |sorted[n..]| && sorted[n..][k] == x;
      assert sorted[n + k] == x;
    }
  }

  /** `analyze_reviews(reviews)`. */
  function AnalyzeReviews(reviews: seq<Review>): (r: seq<Complaint>)
    ensures |r| <= TopN
    ensures forall i :: 0 <= i < |r| ==> r[i].category in Names(Keywords)
    ensures DistinctCategories(r)
    ensures forall i :: 0 <= i < |r| ==> r[i].count == Tally(reviews, r[i].category)
    ensures forall i :: 0 <= i < |r| ==> 1 <= r[i].count <= NegativeCount(reviews)
    ensures forall x :: Tally(reviews, x) > 0 ==> exists i :: 0 <= i < |r| && r[i].category == x
    ensures NonIncreasing(r)
  {
    var counter := CountAll(reviews);
    CountAllMatchesTally(reviews);
    CountAllSize(reviews);
    SortByCountFacts(counter);
    SortByCountDistinct(counter);
    var r := MostCommon(counter, TopN);
    assert r == SortByCount(counter);
    AnalyzeReviewsEntries(reviews, counter, r);
    r
  }

  lemma AnalyzeReviewsEntries(reviews: seq<Review>, counter: seq<Complaint>, r: seq<Complaint>)
    requires counter == CountAll(reviews)
    requires ValidCounter(counter)
    requires forall x :: CountOf(counter, x) == Tally(reviews, x)
    requires multiset(r) == multiset(counter)
    ensures forall i :: 0 <= i < |r| ==> r[i].category in Names(Keywords)
    ensures forall i :: 0 <= i < |r| ==> r[i].count == Tally(reviews, r[i].category)
    ensures forall i :: 0 <= i < |r| ==> 1 <= r[i].count <= NegativeCount(reviews)
    ensures forall x :: Tally(reviews, x) > 0 ==> exists i :: 0 <= i < |r| && r[i].category == x
  {
    forall i | 0 <= i < |r|
      ensures r[i].category in Names(Keywords)
      ensures r[i].count == Tally(reviews, r[i].category)
      ensures 1 <= r[i].count <= NegativeCount(reviews)
    {
      assert r[i] in multiset(counter);
      var k :| 0 <= k < |counter| && counter[k] == r[i];
      CountOfEntry(counter, k);
      TallyBounded(reviews, r[i].category);
      if r[i].category !in Names(Keywords) {
        TallyUnknown(reviews, r[i].category);
      }
    }
    forall x | Tally(reviews, x) > 0
      ensures exists i :: 0 <= i < |r| && r[i].category == x
    {
      CountOfPositive(counter, x);
      var k :| 0 <= k < |counter| && counter[k].category == x;
      assert counter[k] in multiset(r);
      var i :| 0 <= i < |r| && r[i] == counter[k];
    }
  }

  /** Categories with equal counts keep the order in which the counter first
      saw them. */
  lemma AnalyzeReviewsStable(reviews: seq<Review>)
    ensures forall v :: WithCount(AnalyzeReviews(reviews), v) == WithCount(CountAll(reviews), v)
  {
    CountAllSize(reviews);
    SortByCountFacts(CountAll(reviews));
  }
}

=== FILE: server.dfy ===
/** The FastAPI backend: `process_analysis`, the growth forecast, the two
    analysis endpoints with their read-through cache, and the PDF file name. */
module Server {
  import opened Wrappers
  import opened Text
  import opened ReportModel
  import opened AnalysisCache
  import Installs
  import Scraper
  import Sentiment

  /** What one call of `process_analysis` draws from outside: the
      `random.randint(1, 5)` for the search volume, the clock reading for
      `last_updated`, and the float growth curve, which maps the forecast
      base, the opportunity score and a month index to that month's
      downloads and revenue. */
  datatype Env = Env(searchMillions: nat, lastUpdated: string, curve: (int, int, nat) -> (int, int))

  /** The body of `POST /api/analyze` and `POST /api/analyze/refresh`;
      `genre` is absent when the JSON body has no "genre" key. */
  datatype Request = Request(genre: Option<string>)

  datatype Reply = Ok(report: Report) | HttpError(status: int, detail: string)

  /** The cache after the request, and the reply sent. */
  datatype Served = Served(cache: Cache, reply: Reply)

  /** The scraping pipeline, `run_full_analysis`, for a genre: the raw
      analysis or the message of the exception it raised. */
  type Analysis = string -> Result<Scraper.RawAnalysis>

  const DefaultGenre: string := "Productivity"
  const ForecastMonths: seq<string> := ["Oct", "Nov", "Dec", "Jan"]
  /** Only the first ten apps feed the forecast. */
  const ForecastApps: nat := 10

  function RequestedGenre(req: Request): (g: string)
    ensures req.genre.None? ==> g == DefaultGenre
    ensures req.genre.Some? ==> g == req.genre.value
  {
    req.genre.GetOr(DefaultGenre)
  }

  /** The forecast base: the installs of the first ten apps. */
  function ForecastBase(apps: seq<Scraper.AppInfo>): nat {
    Scraper.TotalInstalls(if |apps| <= ForecastApps then apps else apps[..ForecastApps])
  }

  /** `generate_growth_forecast(apps_data, opportunity_score)`. */
  function GrowthForecast(apps: seq<Scraper.AppInfo>, opportunityScore: int,
                          curve: (int, int, nat) -> (int, int)): (trend: seq<MonthPoint>)
    ensures |trend| == |ForecastMonths|
    ensures forall i :: 0 <= i < |trend| ==> trend[i].month == ForecastMonths[i]
    ensures forall i :: 0 <= i < |trend| ==>
              (trend[i].downloads, trend[i].revenue) == curve(ForecastBase(apps), opportunityScore, i)
  {
    var base := ForecastBase(apps);
    seq(|ForecastMonths|, i requires 0 <= i < |ForecastMonths| =>
      var figures := curve(base, opportunityScore, i);
      MonthPoint(ForecastMonths[i], figures.0, figures.1))
  }

  /** Apps past the tenth never change the forecast. */
  lemma ForecastIgnoresTail(apps: seq<Scraper.AppInfo>, more: seq<Scraper.AppInfo>, opportunityScore: int,
                            curve: (int, int, nat) -> (int, int))
    requires |apps| >= ForecastApps
    ensures GrowthForecast(apps + more, opportunityScore, curve) == GrowthForecast(apps, opportunityScore, curve)
  {
    var top := apps[..ForecastApps];
    assert (apps + more)[..ForecastApps] == top;
    if |apps| == ForecastApps {
      assert top == apps;
    }
    if |apps + more| == ForecastApps {
      assert apps + more == top;
    }
    assert ForecastBase(apps + more) == Scraper.TotalInstalls(top);
    assert ForecastBase(apps) == Scraper.TotalInstalls(top);
    var t1 := GrowthForecast(apps + more, opportunityScore, curve);
    var t2 := GrowthForecast(apps, opportunityScore, curve);
    assert forall i :: 0 <= i < |t1| ==> t1[i] == t2[i];
  }

  /** `f"{random.randint(1, 5)}M/mo"`: the drawn figure followed by the unit,
      so reading the label like an install count gives the figure back. */
  function SearchVolume(millions: nat): (volume: string)
    ensures |volume| > 4 && volume[|volume| - 4..] == "M/mo"
    ensures Installs.ParseInstalls(Some(volume)) == millions
  {
    var digits := Decimal(millions);
    Installs.KeepDigitsAppend(digits, "M/mo");
    KeepDigitsOfDigits(digits);
    KeepDigitsNone("M/mo");
    DecimalRoundTrip(millions);
    assert KeepDigits(digits + "M/mo") == digits;
    digits + "M/mo"
  }

  /** `process_analysis(genre)` once `run_full_analysis` has returned `raw`:
      a reshaping of the raw analysis into the dashboard's report. */
  function ProcessAnalysis(genre: string, raw: Scraper.RawAnalysis, env: Env): (r: Report)
    ensures r.genre == genre
    ensures r.metrics.opportunityScore == raw.opportunityScore
    ensures r.metrics.saturationScore == raw.saturationScore
    ensures r.metrics.topAppsCount == |raw.apps|
    ensures |r.sentimentChartData| == |raw.sentiment|
    ensures forall i :: 0 <= i < |r.sentimentChartData| ==>
              r.sentimentChartData[i] == ChartPoint(raw.sentiment[i].category, raw.sentiment[i].count)
    ensures r.opportunityMatrix == raw.gaps
    ensures r.recommendations == raw.recommendations && r.techStack == raw.techStack
    ensures r.growthTrend == GrowthForecast(raw.apps, raw.opportunityScore, env.curve)
    ensures r.asoKeywords == ["smart", "ai", genre]
    ensures !r.isCached
    ensures Scraper.WellFormedRaw(raw) ==> WellFormed(r)
  {
    Report(
      genre,
      Metrics(raw.opportunityScore, raw.saturationScore, |raw.apps|, SearchVolume(env.searchMillions)),
      seq(|raw.sentiment|, i requires 0 <= i < |raw.sentiment| =>
        ChartPoint(raw.sentiment[i].category, raw.sentiment[i].count)),
      raw.gaps,
      GrowthForecast(raw.apps, raw.opportunityScore, env.curve),
      raw.recommendations,
      raw.techStack,
      ["smart", "ai", genre],
      false,
      env.lastUpdated)
  }

  /** The `try` block both endpoints share: run the analysis, store the
      response under the genre, return it; on an exception answer 500 with
      its message and store nothing. */
  function Recompute(cache: Cache, genre: string, analysis: Analysis, env: Env): (s: Served)
    ensures analysis(genre).Failure? ==>
              s == Served(cache, HttpError(500, analysis(genre).error))
    ensures analysis(genre).Success? ==>
              && s.reply.Ok?
              && s.reply.report == ProcessAnalysis(genre, analysis(genre).value, env)
              && s.cache == CacheAnalysis(cache, genre, s.reply.report)
  {
    match analysis(genre)
    case Failure(e) => Served(cache, HttpError(500, e))
    case Success(raw) =>
      var response := ProcessAnalysis(genre, raw, env);
      Served(CacheAnalysis(cache, genre, response), Ok(response))
  }

  /** `POST /api/analyze`: read-through. A hit marks the stored report as
      cached (in local mode the stored dictionary itself is updated, since
      `get_analysis` returns it by reference) and returns it without running
      the analysis; a miss recomputes. */
  function AnalyzeMarket(cache: Cache, req: Request, analysis: Analysis, env: Env): (s: Served)
    ensures var g := RequestedGenre(req);
      GetAnalysis(cache, g).Some? ==>
        && s.reply == Ok(GetAnalysis(cache, g).value.(isCached := true))
        && s.cache == CacheAnalysis(cache, g, s.reply.report)
    ensures var g := RequestedGenre(req);
      GetAnalysis(cache, g).None? && analysis(g).Success? ==>
        && s.reply == Ok(ProcessAnalysis(g, analysis(g).value, env))
        && s.cache == CacheAnalysis(cache, g, s.reply.report)
        && s.reply.report.genre == g
        && !s.reply.report.isCached
        && GetAnalysis(s.cache, g) == Some(s.reply.report)
    ensures var g := RequestedGenre(req);
      GetAnalysis(cache, g).None? && analysis(g).Failure? ==>
        s == Served(cache, HttpError(500, analysis(g).error))
  {
    var genre := RequestedGenre(req);
    match GetAnalysis(cache, genre)
    case Some(cached) =>
      var flagged := cached.(isCached := true);
      Served(CacheAnalysis(cache, genre, flagged), Ok(flagged))
    case None => Recompute(cache, genre, analysis, env)
  }

  /** `POST /api/analyze/refresh`: always recomputes and overwrites. */
  function RefreshMarket(cache: Cache, req: Request, analysis: Analysis, env: Env): (s: Served)
    ensures var g := RequestedGenre(req);
      analysis(g).Success? ==>
        && s.reply == Ok(ProcessAnalysis(g, analysis(g).value, env))
        && s.cache == CacheAnalysis(cache, g, s.reply.report)
        && s.reply.report.genre == g
        && !s.reply.report.isCached
        && GetAnalysis(s.cache, g) == Some(s.reply.report)
    ensures var g := RequestedGenre(req);
      analysis(g).Failure? ==> s == Served(cache, HttpError(500, analysis(g).error))
  {
    Recompute(cache, RequestedGenre(req), analysis, env)
  }

  /** A hit runs no analysis: neither the pipeline nor the draws matter. */
  lemma AnalyzeHitIgnoresAnalysis(cache: Cache, req: Request, a1: Analysis, e1: Env, a2: Analysis, e2: Env)
    requires GetAnalysis(cache, RequestedGenre(req)).Some?
    ensures AnalyzeMarket(cache, req, a1, e1) == AnalyzeMarket(cache, req, a2, e2)
  {
  }

  /** Both endpoints change at most the requested genre's entry. */
  lemma EndpointsFrame(cache: Cache, req: Request, analysis: Analysis, env: Env, other: string)
    requires Lower(other) != Lower(RequestedGenre(req))
    ensures GetAnalysis(AnalyzeMarket(cache, req, analysis, env).cache, other) == GetAnalysis(cache, other)
    ensures GetAnalysis(RefreshMarket(cache, req, analysis, env).cache, other) == GetAnalysis(cache, other)
  {
    var g := RequestedGenre(req);
    if GetAnalysis(cache, g).Some? {
      GetAfterCache(cache, g, GetAnalysis(cache, g).value.(isCached := true), other);
    }
    if analysis(g).Success? {
      GetAfterCache(cache, g, ProcessAnalysis(g, analysis(g).value, env), other);
    }
  }

  /** Analyze twice: once the first call has stored a report, the second is a
      hit that returns the same report marked as cached, whatever the
      pipeline would now produce. The genres need only agree up to case. */
  lemma AnalyzeTwice(cache: Cache, req1: Request, req2: Request, a1: Analysis, e1: Env, a2: Analysis, e2: Env)
    requires Lower(RequestedGenre(req1)) == Lower(RequestedGenre(req2))
    requires AnalyzeMarket(cache, req1, a1, e1).reply.Ok?
    ensures var first := AnalyzeMarket(cache, req1, a1, e1);
      AnalyzeMarket(first.cache, req2, a2, e2).reply == Ok(first.reply.report.(isCached := true))
  {
    var first := AnalyzeMarket(cache, req1, a1, e1);
    var g1 := RequestedGenre(req1);
    GetAfterCache(cache, g1, first.reply.report, RequestedGenre(req2));
  }

  /** A successful refresh is what the next analyze serves, marked as cached. */
  lemma RefreshThenAnalyze(cache: Cache, req: Request, a1: Analysis, e1: Env, a2: Analysis, e2: Env)
    requires a1(RequestedGenre(req)).Success?
    ensures var refreshed := RefreshMarket(cache, req, a1, e1);
      AnalyzeMarket(refreshed.cache, req, a2, e2).reply == Ok(refreshed.reply.report.(isCached := true))
  {
  }

  /** Every cache entry was stored under its own report's genre and holds a
      report the dashboard can render. */
  ghost predicate CacheInvariant(cache: Cache) {
    forall k :: k in cache ==> Key(cache[k].genre) == k && WellFormed(cache[k])
  }

  /** The pipeline only ever returns well-formed raw analyses. */
  ghost predicate SoundAnalysis(analysis: Analysis) {
    forall g :: analysis(g).Success? ==> Scraper.WellFormedRaw(analysis(g).value)
  }

  /** A pipeline that answers every genre it succeeds on with
      `run_full_analysis` of some scraped data is sound. */
  lemma ScrapedAnalysisSound(analysis: Analysis, apps: string -> seq<Scraper.AppInfo>,
                             reviews: string -> seq<Sentiment.Review>, baseCoverage: string -> int,
                             deltas: string -> seq<int>, opportunityInner: string -> int)
    requires forall g :: |deltas(g)| == |Scraper.FeaturesFor(g)|
    requires forall g :: analysis(g).Success? ==>
               analysis(g).value == Scraper.RunFullAnalysis(g, apps(g), reviews(g), baseCoverage(g), deltas(g), opportunityInner(g))
    ensures SoundAnalysis(analysis)
  {
    forall g | analysis(g).Success?
      ensures Scraper.WellFormedRaw(analysis(g).value)
    {
      var raw := Scraper.RunFullAnalysis(g, apps(g), reviews(g), baseCoverage(g), deltas(g), opportunityInner(g));
      assert Scraper.WellFormedRaw(raw);
    }
  }

  /** Both endpoints keep the cache invariant, and every report they send
      belongs to the requested genre (up to case) and is well formed: the
      per-genre key prevents data of one genre being served for another. */
  lemma {:induction false} EndpointsKeepInvariant(cache: Cache, req: Request, analysis: Analysis, env: Env)
    requires CacheInvariant(cache)
    requires SoundAnalysis(analysis)
    ensures CacheInvariant(AnalyzeMarket(cache, req, analysis, env).cache)
    ensures CacheInvariant(RefreshMarket(cache, req, analysis, env).cache)
    ensures AnalyzeMarket(cache, req, analysis, env).reply.Ok? ==>
              var r := AnalyzeMarket(cache, req, analysis, env).reply.report;
              Lower(r.genre) == Lower(RequestedGenre(req)) && WellFormed(r)
    ensures RefreshMarket(cache, req, analysis, env).reply.Ok? ==>
              var r := RefreshMarket(cache, req, analysis, env).reply.report;
              Lower(r.genre) == Lower(RequestedGenre(req)) && WellFormed(r)
  {
    var g := RequestedGenre(req);
    RecomputeKeepsInvariant(cache, g, analysis, env);
    if GetAnalysis(cache, g).Some? {
      HitKeepsInvariant(cache, g);
    }
  }

  lemma RecomputeKeepsInvariant(cache: Cache, g: string, analysis: Analysis, env: Env)
    requires CacheInvariant(cache)
    requires SoundAnalysis(analysis)
    ensures CacheInvariant(Recompute(cache, g, analysis, env).cache)
    ensures Recompute(cache, g, analysis, env).reply.Ok? ==>
              var r := Recompute(cache, g, analysis, env).reply.report;
              r.genre == g && WellFormed(r)
  {
    if analysis(g).Success? {
      var r := ProcessAnalysis(g, analysis(g).value, env);
      var c := CacheAnalysis(cache, g, r);
      forall k | k in c
        ensures Key(c[k].genre) == k && WellFormed(c[k])
      {
        if k != Key(g) {
          assert c[k] == cache[k];
        }
      }
    }
  }

  lemma HitKeepsInvariant(cache: Cache, g: string)
    requires CacheInvariant(cache)
    requires GetAnalysis(cache, g).Some?
    ensures var flagged := GetAnalysis(cache, g).value.(isCached := true);
      && CacheInvariant(CacheAnalysis(cache, g, flagged))
      && Lower(flagged.genre) == Lower(g) && WellFormed(flagged)
  {
    var stored := cache[Key(g)];
    var flagged := stored.(isCached := true);
    assert Key(stored.genre) == Key(g);
    KeyShared(stored.genre, g);
    var c := CacheAnalysis(cache, g, flagged);
    forall k | k in c
      ensures Key(c[k].genre) == k && WellFormed(c[k])
    {
      if k != Key(g) {
        assert c[k] == cache[k];
      }
    }
  }

  /** `filename=f"Blueprint_{data.get('genre', 'Analysis')}.pdf"` of
      `POST /api/generate-pdf`. */
  function PdfFileName(genre: Option<string>): (name: string)
    ensures |name| == |"Blueprint_"| + |genre.GetOr("Analysis")| + |".pdf"|
    ensures name[..10] == "Blueprint_"
    ensures name[|name| - 4..] == ".pdf"
  {
    "Blueprint_" + genre.GetOr("Analysis") + ".pdf"
  }

  /** The file name gives back the genre it was made from. */
  lemma PdfFileNameGenre(genre: Option<string>)
    ensures var name := PdfFileName(genre); name[10..|name| - 4] == genre.GetOr("Analysis")
  {
  }
}

=== FILE: text.dfy ===
/** String helpers over `seq<char>` that the Python and JavaScript sources get
    from their standard libraries: ASCII lower-casing (`str.lower`), substring
    search (`w in text`), digit filtering (`re.sub(r'[^\d]', '', s)`), decimal
    parsing (`int(s)`) and decimal printing (`str(n)`). */
module Text {

  predicate IsUpper(c: char) {
    'A' <= c <= 'Z'
  }

  function LowerChar(c: char): (d: char)
    ensures !IsUpper(d)
    ensures !IsUpper(c) ==> d == c
  {
    if IsUpper(c) then (c as int - 'A' as int + 'a' as int) as char else c
  }

  /** `s.lower()`, restricted to the ASCII letters. */
  function Lower(s: string): string {
    seq(|s|, i requires 0 <= i < |s| => LowerChar(s[i]))
  }

  /** Lower-casing leaves no upper-case letter behind, so doing it twice is
      the same as doing it once. */
  lemma LowerIdempotent(s: string)
    ensures forall i :: 0 <= i < |s| ==> !IsUpper(Lower(s)[i])
    ensures Lower(Lower(s)) == Lower(s)
  {
  }

  /** `word` occurs in `text` at position `i`. */
  ghost predicate OccursAt(text: string, word: string, i: int) {
    0 <= i && i + |word| <= |text| && text[i..i + |word|] == word
  }

  /** Python's `word in text`: a left-to-right scan for an occurrence. */
  function Contains(text: string, word: string): bool
    decreases |text|
  {
    if |word| > |text| then false
    else if text[..|word|] == word then true
    else Contains(text[1..], word)
  }

  /** The scan finds an occurrence exactly when one exists. */
  lemma {:induction false} ContainsIffOccurs(text: string, word: string)
    ensures Contains(text, word) <==> exists i :: OccursAt(text, word, i)
    decreases |text|
  {
    if |word| > |text| {
    } else if text[..|word|] == word {
      assert OccursAt(text, word, 0);
    } else {
      ContainsIffOccurs(text[1..], word);
      if Contains(text[1..], word) {
        var i :| OccursAt(text[1..], word, i);
        assert text[1..][i..i + |word|] == text[i + 1..i + 1 + |word|];
        assert OccursAt(text, word, i + 1);
      }
      if exists i :: OccursAt(text, word, i) {
        var i :| OccursAt(text, word, i);
        assert i != 0;
        assert text[1..][i - 1..i - 1 + |word|] == text[i..i + |word|];
        assert OccursAt(text[1..], word, i - 1);
      }
    }
  }

  /** Python's `any(w in text for w in words)`. */
  function ContainsAny(text: string, words: seq<string>): bool {
    if |words| == 0 then false
    else Contains(text, words[0]) || ContainsAny(text, words[1..])
  }

  lemma {:induction false} ContainsAnyIffSome(text: string, words: seq<string>)
    ensures ContainsAny(text, words) <==> exists k :: 0 <= k < |words| && Contains(text, words[k])
  {
    if |words| > 0 {
      ContainsAnyIffSome(text, words[1..]);
      if exists k :: 0 <= k < |words| && Contains(text, words[k]) {
        var k :| 0 <= k < |words| && Contains(text, words[k]);
        if k > 0 {
          assert words[1..][k - 1] == words[k];
        }
      }
    }
  }

  predicate IsDigit(c: char) {
    '0' <= c <= '9'
  }

  predicate AllDigits(s: string) {
    forall i :: 0 <= i < |s| ==> IsDigit(s[i])
  }

  function DigitValue(c: char): nat
    requires IsDigit(c)
  {
    c as int - '0' as int
  }

  function DigitChar(d: nat): char
    requires d < 10
  {
    ('0' as int + d) as char
  }

  /** `re.sub(r'[^\d]', '', s)`: the digits of `s`, in order. */
  function KeepDigits(s: string): (ds: string)
    ensures AllDigits(ds)
    ensures |ds| <= |s|
  {
    if |s| == 0 then []
    else (if IsDigit(s[0]) then [s[0]] else []) + KeepDigits(s[1..])
  }

  /** `int(ds)` for a non-empty all-digit string; the empty string reads as 0. */
  function DecimalValue(ds: string): nat
    requires AllDigits(ds)
  {
    if |ds| == 0 then 0
    else DecimalValue(ds[..|ds| - 1]) * 10 + DigitValue(ds[|ds| - 1])
  }

  /** `str(n)` for a natural number: its decimal digits without leading zeros. */
  function Decimal(n: nat): (s: string)
    ensures AllDigits(s)
    ensures 0 < |s|
    ensures |s| > 1 ==> s[0] != '0'
  {
    if n < 10 then [DigitChar(n)] else Decimal(n / 10) + [DigitChar(n % 10)]
  }

  /** Reading back the printed digits gives the number. */
  lemma {:induction false} DecimalRoundTrip(n: nat)
    ensures DecimalValue(Decimal(n)) == n
  {
    if n >= 10 {
      DecimalRoundTrip(n / 10);
      var s := Decimal(n);
      assert s[..|s| - 1] == Decimal(n / 10);
    }
  }

  /** Filtering a string that holds only digits changes nothing. */
  lemma {:induction false} KeepDigitsOfDigits(s: string)
    requires AllDigits(s)
    ensures KeepDigits(s) == s
  {
    if |s| > 0 {
      KeepDigitsOfDigits(s[1..]);
    }
  }

  /** A string without digits filters to the empty string. */
  lemma {:induction false} KeepDigitsNone(s: string)
    requires forall i :: 0 <= i < |s| ==> !IsDigit(s[i])
    ensures KeepDigits(s) == []
  {
    if |s| > 0 {
      KeepDigitsNone(s[1..]);
    }
  }
}

=== FILE: wiring.dfy ===
/** How the frontend and the backend meet: the analysis request the
    component posts is served by one of the two endpoints, and the reply
    (or a transport failure) becomes the response the component settles. */
module Wiring {
  import opened Wrappers
  import opened Text
  import opened ReportModel
  import opened AnalysisCache
  import App
  import Server

  /** What axios hands back for a request: a 2xx reply's body resolves the
      promise; an error status, or no reply at all (`None`), rejects it. */
  function Deliver(reply: Option<Server.Reply>): (response: Result<Report>)
    ensures response.Success? <==> reply.Some? && reply.value.Ok?
    ensures response.Success? ==> response.value == reply.value.report
  {
    match reply
    case Some(Ok(report)) => Success(report)
    case Some(HttpError(_, detail)) => Failure(detail)
    case None => Failure("Network Error")
  }

  /** The endpoint a posted request reaches. */
  function Serve(cache: Cache, post: App.Effect, analysis: Server.Analysis, env: Server.Env): Server.Served
    requires post.PostAnalysis?
  {
    var req := Server.Request(Some(post.genre));
    if post.endpoint == App.RefreshEndpoint then Server.RefreshMarket(cache, req, analysis, env)
    else Server.AnalyzeMarket(cache, req, analysis, env)
  }

  /** The file the frontend saves has the name the backend gives it. */
  lemma FileNamesAgree(r: Report)
    ensures App.FileName(r) == Server.PdfFileName(Some(r.genre))
  {
  }

  /** Pressing Analyze and letting the backend answer: the dashboard shows a
      report for the selected genre (up to case), marked "Cached Data"
      exactly when the backend found it in its cache; if the backend fails,
      the previous data stays. */
  lemma AnalyzeRoundTrip(s: App.AppState, cache: Cache, analysis: Server.Analysis, env: Server.Env)
    requires !s.isAnalyzing
    requires Server.CacheInvariant(cache)
    requires Server.SoundAnalysis(analysis)
    ensures var started := App.Step(s, App.ClickAnalyze);
      var served := Serve(cache, started.effects[0], analysis, env);
      var settled := App.Step(started.next, App.AnalysisSettled(Deliver(Some(served.reply)))).next;
      && App.View(settled) == (if settled.data.Some? then App.DashboardView else App.EmptyView)
      && (served.reply.Ok? ==>
            && settled.data == Some(served.reply.report)
            && Lower(settled.data.value.genre) == Lower(s.selectedGenre)
            && WellFormed(settled.data.value)
            && ((App.Indicator(settled.data.value) == "Cached Data")
                <==> GetAnalysis(cache, s.selectedGenre).Some?))
      && (served.reply.HttpError? ==> settled.data == s.data)
  {
    var started := App.Step(s, App.ClickAnalyze);
    var req := Server.Request(Some(s.selectedGenre));
    Server.EndpointsKeepInvariant(cache, req, analysis, env);
  }
}

=== FILE: wrappers.dfy ===
/** Failure-carrying values shared by the model: `Option` for Python's `None`
    and JavaScript's `null`, `Result` for a call that either returns a value or
    raises an exception whose message is kept as a string. */
module Wrappers {

  datatype Option<+T> = None | Some(value: T) {

    /** The wrapped value, or `default` when absent (Python's `dict.get(k, default)`). */
    function GetOr(default: T): T {
      match this
      case Some(v) => v
      case None => default
    }
  }

  datatype Result<+T> = Success(value: T) | Failure(error: string)
}
